=== FILE: README.md ===
# Chirpy in Dafny

A model of the request-handling core of Chirpy, a small Go REST service for
short posts ("chirps"). The model covers:

- the session-token helpers: `MakeJWT`, `ValidateJWT` and `GetBearerToken`;
- the refresh-token generator;
- the user handlers: register, login, refresh, revoke and profile update;
- the chirp handlers: post with length check and word cleaning, list, read,
  and delete by the owner only;
- the billing webhook;
- the admin visit counter and the platform-gated reset.

Each handler is a method. It takes the decoded request (or the decoder's
error), the Authorization header value ("" when absent), the current time,
the bytes the random source delivers and the error each store call reports.
It returns what was written to Go's `http.ResponseWriter`. The store is a
class, `Database.Db`, whose maps the handlers change in place. The writer is
a value, `Http.Response`, with Go's rules:

- the first status written wins;
- a body write with no status sent implies 200;
- body writes are appended.

These rules make the two handlers that write an error and carry on
observable.

Standards followed:

- Session tokens carry the registered claims `iss`, `sub`, `iat` and `exp`
  (sections 4.1.1, 4.1.2, 4.1.6 and 4.1.4 of RFC 7519).
- They are signed with an HMAC algorithm (section 3.2 of RFC 7518).
- The Authorization header is read leniently as in section 2.1 of RFC 6750.
- Refresh tokens are base16 with the lowercase alphabet (section 8 of RFC 4648).

Modules, one per file:

- `common.dfy`: Option, Result and byte.
- `decimal.dfy`: decimal text of integers.
- `wire.dfy`: a length-prefixed field encoding that stands in for the token
  text format.
- `hex.dfy`: base16.
- `uuid.dfy`: identifiers and their dashed text form.
- `password.dfy`: idealised password hashing.
- `jwt.dfy`: session tokens and the bearer header.
- `refresh_token.dfy`: the refresh-token generator.
- `database.dfy`: the store.
- `http.dfy`: the response writer and the error helper.
- `config.dfy`: the API configuration, the counter, metrics and reset.
- `user_handlers.dfy`, `chirp_handlers.dfy`, `webhook_handlers.dfy`: the
  handlers.
- `scenarios.dfy`: request sequences against a fresh store.

Expiry follows the JWT library the code uses: a token is refused from its
`exp` second onwards, so it is valid only while `now < exp`.

## Model

| member | source | states |
|---|---|---|
| Decimal.NatToString | config.go:30 | the `%d` text of a count is non-empty, all digits, and has one digit exactly when the count is below 10 |
| Decimal.StringToNat | config.go:30 | reading decimal text succeeds exactly for non-empty all-digit text |
| Decimal.IntToString | config.go:30 | the text starts with '-' exactly when the number is negative |
| Decimal.DigitsValueOfNatToString | config.go:30 | the digits of `n` have the value `n` |
| Decimal.NatRoundTrip | config.go:30 | reading back the text of a natural number gives the number |
| Decimal.IntRoundTrip | config.go:30 | reading back the text of any integer gives the integer |
| Wire.DigitPrefixLength | internal/auth/jwt.go:43 | the length prefix the reader takes is all digits and stops at the first non-digit |
| Wire.ReadFieldRoundTrip | internal/auth/jwt.go:43 | one encoded field followed by any text reads back as that field and that text |
| Wire.DecodeEncode | internal/auth/jwt.go:24 | decoding the encoding of any list of fields gives the list back |
| Wire.EncodeInjective | internal/auth/jwt.go:24 | equal encodings of equally long lists come from equal lists |
| Hex.DigitValue | internal/auth/refresh_token.go:11 | a recognised hex digit has a value below 16 |
| Hex.DigitValueDefined | internal/auth/refresh_token.go:11 | exactly the sixteen digits, in either letter case, are recognised |
| Hex.Encode | internal/auth/refresh_token.go:11 | the text has two characters per byte |
| Hex.Decode | internal/auth/refresh_token.go:11 | a successful decode reads two characters per byte, and decoding succeeds exactly on even-length text made only of digits |
| Hex.EncodeAt | internal/auth/refresh_token.go:11 | characters 2i and 2i+1 are the high and low nibble digits of byte i |
| Hex.EncodeAlphabet | internal/auth/refresh_token.go:11 | every character is in "0123456789abcdef" |
| Hex.DigitValueOfDigit | internal/auth/refresh_token.go:11 | each printed digit reads back as its nibble |
| Hex.DecodeEncode | internal/auth/refresh_token.go:11 | decoding the encoding gives the bytes back |
| Hex.EncodeInjective | internal/auth/refresh_token.go:11 | distinct byte strings have distinct encodings |
| Hex.EncodeAppend | internal/auth/refresh_token.go:11 | the encoding of a concatenation is the concatenation of the encodings |
| RefreshToken.Filled | internal/auth/refresh_token.go:9-10 | the buffer is 32 bytes: the first 32 delivered bytes, or all delivered bytes followed by zeros when fewer came |
| RefreshToken.TokenFor | internal/auth/refresh_token.go:9-11 | the token has 64 characters and decodes to the filled buffer |
| RefreshToken.Read | internal/auth/refresh_token.go:9-10 | the zeroed 32-byte buffer ends up holding the first 32 delivered bytes, the rest staying zero |
| RefreshToken.EncodeToString | internal/auth/refresh_token.go:11 | the character-array loop produces exactly the hex encoding of the buffer |
| RefreshToken.MakeRefreshToken | internal/auth/refresh_token.go:8-13 | the token is the hex encoding of the filled buffer and the error is always nil |
| RefreshToken.TokenShape | internal/auth/refresh_token.go:9-11 | the token is 64 characters, all lowercase hex digits |
| RefreshToken.TokenDecodes | internal/auth/refresh_token.go:9-11 | decoding the token gives back the 32 random bytes |
| RefreshToken.TokenInjective | internal/auth/refresh_token.go:9-11 | different random buffers give different tokens |
| Uuid.ToString | internal/auth/jwt.go:20 | the printed form of an identifier has 36 characters |
| Uuid.Parse | chirp_handlers.go:153-157 | a text is accepted exactly when it has 36 characters, dashes at positions 8, 13, 18 and 23 and a hex digit of either case everywhere else |
| Uuid.ParseToString | internal/auth/jwt.go:51 | parsing the printed form of an identifier gives the identifier |
| Uuid.Groups | internal/auth/jwt.go:51 | groups of 8, 4, 4, 4 and 12 characters joined by dashes form a 36-character text with dashes at 8, 13, 18 and 23, and removing those dashes gives back the groups |
| Uuid.EncodeGroups | internal/auth/jwt.go:20 | printing the five groups one by one prints the whole identifier |
| Password.HashPassword | user_handlers.go:54-58 | hashing fails exactly when the random source failed |
| Password.CheckPasswordHash | user_handlers.go:113-117 | the check errs exactly on a hash that is not of the scheme's form |
| Password.CheckOwnHash | user_handlers.go:113-117 | a password checks true against its own hash |
| Password.CheckOtherPassword | user_handlers.go:113-117 | any other password checks false, without an error |
| Jwt.ParseSerialize | internal/auth/jwt.go:43-46 | a serialized token parses back to the same algorithm, claims and signature |
| Jwt.MacKeyInjective | internal/auth/jwt.go:36-41 | the signature of one message under two keys agrees only when the keys agree |
| Jwt.MakeJWT | internal/auth/jwt.go:13-31 | an issued token reads back as HS256, issuer "chirpy", subject the printed user id, iat = now, exp = now + lifetime, signed with the secret |
| Jwt.ValidateJWT | internal/auth/jwt.go:33-57 | every refusal carries the zero identifier; acceptance implies a well-formed token with an HMAC method, a signature made with the secret over its algorithm and claims, an expiry after now, and a subject that parses to the returned id; conversely, each check refuses with its own error in the library's order (malformed, non-HMAC method, bad signature, expired, subject not an identifier), and a token passing all of them is accepted with its subject's id |
| Jwt.AnyHmacAccepted | internal/auth/jwt.go:36-41 | a token signed with the secret under any HMAC method (HS256, HS384, HS512), by any issuer, validates to its subject before it expires |
| Jwt.MakeValidateRoundTrip | internal/auth/auth_test.go:11-32 | a token made and validated with the same secret before it expires gives back the user id |
| Jwt.ExpiredTokenRejected | internal/auth/auth_test.go:34-48 | a token at or past its expiry, including one made with a negative lifetime, is refused as expired |
| Jwt.WrongSecretRejected | internal/auth/auth_test.go:49-64 | a token validated with a different secret is refused as badly signed |
| Jwt.IssuerNotChecked | internal/auth/jwt.go:43 | validation decides alike for tokens that differ only in the issuer |
| Jwt.BadSubjectRejected | internal/auth/jwt.go:51-54 | a well-signed, unexpired token whose subject is not an identifier is refused with the zero id |
| Jwt.GetBearerToken | internal/auth/jwt.go:59-70 | the extraction fails exactly when the header is empty |
| Jwt.TrimPrefix | internal/auth/jwt.go:67 | the result with the prefix put back is the input when the input starts with the prefix; otherwise the input is returned unchanged |
| Jwt.Credential | internal/auth/jwt.go:67 | the credential is the header value less one leading "Bearer " when it has one, and the value itself otherwise |
| Jwt.BearerRoundTrip | internal/auth/auth_test.go:66-79 | "Bearer " followed by any credential yields that credential, an empty one included |
| Jwt.BearerPassThrough | internal/auth/jwt.go:67-69 | a non-empty header without the exact prefix is returned unchanged |
| Jwt.BearerExamples | internal/auth/jwt.go:63-69 | "Bearer x" gives "x"; "bearer x" and a second "Bearer " are kept; "Bearer " gives ""; "" is an error |
| Http.Response.WriteHeader | user_handlers.go:23 | a status is recorded only if none was sent before, and the body is untouched |
| Http.Response.Write | user_handlers.go:34 | a body write appends and fixes the status at 200 if none was sent |
| Http.PublicInfo | user_handlers.go:14-20 | the response projection carries id, timestamps, e-mail and the Chirpy Red flag of the user |
| Http.PublicInfoHidesHash | user_handlers.go:141-157 | the projection is the same whatever the password hash |
| Http.ReturnError | user_handlers.go:22-35 | the error helper appends `{"error": "Error: <msg>"}` and sets the code unless a status was already sent |
| Database.Db.UserWithEmail | user_handlers.go:107 | finds a user exactly when some stored user has the e-mail, and returns that stored row |
| Database.Db.CreateUser | user_handlers.go:65-69 | the insert succeeds exactly without a fault, with a new id and an unused e-mail, and adds exactly the new row |
| Database.Db.GetUserByEmail | user_handlers.go:107-111 | returns the user holding the e-mail, or "no rows" / the fault |
| Database.Db.GetUser | chirp_handlers.go:47-50 | returns the stored user, or "no rows" / the fault |
| Database.Db.UpdateUser | user_handlers.go:266-270 | replaces e-mail and hash and stamps the update, exactly when the user exists and the e-mail is not another user's |
| Database.Db.SetUserIsChirpyRed | webhook_handlers.go:52-55 | sets the flag of an existing user and changes nothing else; errs only through the store |
| Database.Db.DeleteAllUsers | config.go:41-44 | empties the user table unless the store fails |
| Database.Db.CreateRefreshToken | user_handlers.go:136-139 | stores the record keyed by its token, not revoked, exactly when the token is new |
| Database.Db.GetToken | user_handlers.go:176-180 | returns the stored record with the expiry flag the lookup query reports, or "no rows" / the fault |
| Database.Db.RevokeToken | user_handlers.go:183-186 | stamps revocation and update time on an existing record; a missing record is left as it is |
| Database.Db.CreateChirp | chirp_handlers.go:75-79 | adds exactly the new chirp with the given body and author |
| Database.Db.GetChirp | chirp_handlers.go:122-126 | returns the stored chirp, or "no rows" / the fault |
| Database.Db.GetAllChirps | chirp_handlers.go:95-99 | returns every stored chirp unless the store fails |
| Database.Db.DeleteChirp | chirp_handlers.go:169-172 | removes exactly that chirp unless the store fails |
| Config.Inc32 | config.go:20 | the atomic add of one is one more modulo 2^32, and plain +1 below the maximum |
| Config.MetricsPage | config.go:30 | the page an admin reads reports exactly the counter value it was made from |
| Config.ApiConfig.constructor | config.go:11-16 | the configuration holds the store, platform and secret it was given, and the counter starts at zero |
| Config.ApiConfig.MiddlewareMetricsInc | config.go:18-23 | each request through the file server adds one to the counter and is otherwise passed through |
| Config.ApiConfig.HandlerFileserverHits | config.go:25-33 | status 200 and a page that reports the current count |
| Config.ApiConfig.HandlerResetUsers | config.go:35-46 | 403 and nothing deleted unless the platform is "dev"; then 500 and nothing deleted, or 200 and no users |
| UserHandlers.AfterHeaderCheck | user_handlers.go:171-174 | the writer is untouched exactly when a header is present; without one it holds status 401 and the single error document for the missing header |
| UserHandlers.CheckCredentials | user_handlers.go:107-117 | a user is accepted only if the lookup found that very user and the password checks against its stored hash; a found user whose hash matches is always accepted |
| UserHandlers.CredentialsDecision | user_handlers.go:107-117 | a user is accepted with the password its hash was made from and refused with any other |
| UserHandlers.HandlerPostUsers | user_handlers.go:37-87 | 201 exactly when decoding, hashing and the insert succeed; the stored hash checks true against the password; the response is the public projection; a decode, hashing or insert failure answers 500 with that error and stores nothing |
| UserHandlers.HandlerPostLogin | user_handlers.go:89-167 | an unknown e-mail and a failing password check both get the same 401 "Incorrect email or password" and store nothing; a failed refresh-record insert answers 500 with the store's error; success gives 200 with a one-hour token for the user, the refresh token, and a stored sixty-day refresh record |
| UserHandlers.HandlerPostRefresh | user_handlers.go:169-210 | a missing header gives 401 but the lookup still runs; a failed lookup gives 401 and no change; a record the lookup reports expired is revoked before the 401, or 500 if revoking fails; otherwise a one-hour token for the record's user, the record left as it was |
| UserHandlers.HandlerPostRefreshCorrected | user_handlers.go:171-174 | a missing header ends the request with a single 401 and no store access; otherwise as the handler above |
| UserHandlers.HandlerPostRevoke | user_handlers.go:212-224 | 401 and no change without a header; otherwise the presented token is revoked if stored, then 204, or 500 if the store fails |
| UserHandlers.HandlerPutUsers | user_handlers.go:226-290 | 401 and no change without a header or with an invalid token; under a valid token a decode, hashing or update failure answers 500 with that error and changes nothing; a 200 update always targets the token's subject, stores a hash that checks true, and returns the public projection |
| ChirpHandlers.RuneLength | chirp_handlers.go:52 | a character takes one to four bytes, one exactly when it is ASCII |
| ChirpHandlers.Utf8Length | chirp_handlers.go:52 | the byte length lies between the character count and four times it |
| ChirpHandlers.AsciiLength | chirp_handlers.go:52 | for ASCII text the byte length is the character count |
| ChirpHandlers.WideLength | chirp_handlers.go:52 | any non-ASCII character makes the byte length exceed the character count |
| ChirpHandlers.ReplaceAll | chirp_handlers.go:68 | text shorter than the word, or in which the word does not occur, is returned unchanged |
| ChirpHandlers.ReplaceAllSplice | chirp_handlers.go:68 | at the first occurrence of the word, the text before it is kept, the occurrence becomes the replacement and replacing continues on the rest; with the identity above this fixes the result on every input |
| ChirpHandlers.MaskFirst | chirp_handlers.go:67-69 | a pass over text whose first occurrence of the word is preceded only by characters other than its first keeps that prefix, writes "****" and continues on the rest |
| ChirpHandlers.ReplaceAllFree | chirp_handlers.go:68 | after replacing a word by a mask foreign to it, the word occurs nowhere, and a later pass does not bring back an earlier word |
| ChirpHandlers.CleanWithFree | chirp_handlers.go:64-69 | after the passes, none of the words occurs |
| ChirpHandlers.CleanWith | chirp_handlers.go:64-69 | text containing none of the words is left unchanged by the passes |
| ChirpHandlers.CleanWithLater | chirp_handlers.go:67-69 | once the first passes give a text in which none of the remaining words occurs, the later passes leave it as it is |
| ChirpHandlers.Clean | chirp_handlers.go:64-69 | none of the six listed words occurs in the cleaned text, and text containing none of them is left unchanged |
| ChirpHandlers.CleanIdempotent | chirp_handlers.go:64-69 | cleaning a cleaned text changes nothing |
| ChirpHandlers.ListedWordMasked | chirp_handlers.go:64-69 | "I love kerfuffle pie" is cleaned to "I love **** pie": the listed word is masked and the text around it kept |
| ChirpHandlers.UnlistedFormSurvives | chirp_handlers.go:64 | matching is exact and case-sensitive: "KERFUFFLE" is kept |
| ChirpHandlers.CleanChirp | chirp_handlers.go:64-69 | the loop computes the word-by-word cleaning in list order, and no listed word remains |
| ChirpHandlers.SaveChirp | chirp_handlers.go:52-89 | more than 140 bytes gives 400 "chirp is too long" and stores nothing; otherwise the cleaned body is stored and returned with 201, or a failed insert answers 500 with the store's error |
| ChirpHandlers.HandlerPostChirps | chirp_handlers.go:14-90 | 403 without a header, 401 for an invalid token, 500 for a bad body or unknown author; the stored chirp's author is the token's subject whatever the body names |
| ChirpHandlers.HandlerGetChirps | chirp_handlers.go:92-110 | 200 with every stored chirp, or 500 |
| ChirpHandlers.HandlerGetChirp | chirp_handlers.go:112-137 | 404 for an unparseable or unknown id, otherwise 200 with the chirp |
| ChirpHandlers.HandlerDeleteChirp | chirp_handlers.go:139-174 | 401 without a header or with an invalid token, 404 for an unparseable or unknown id, 403 and no deletion for another user's chirp; a 204 deletion happens only for the author |
| WebhookHandlers.Upgraded | webhook_handlers.go:47-56 | an upgrade keeps the same users, sets the flag of the named user if present, and leaves that user's other fields and every other user unchanged |
| WebhookHandlers.HandlerPostPolkaWebhooks | webhook_handlers.go:13-59 | 401 and no change if no key can be extracted; a wrong key writes 401 and the handler carries on; a bad body or unparseable user id then adds a 500 error document and changes nothing; only "user.upgraded" sets the flag, of that user alone; a store error gives 404; otherwise 204 |
| WebhookHandlers.HandlerPostPolkaWebhooksCorrected | webhook_handlers.go:27-30 | a wrong key gives 401 and changes nothing; any change to users comes from the configured key and a "user.upgraded" event |
| Scenarios.RegisteredService | user_handlers.go:37-87 | after registration the store holds exactly the new user, found by e-mail, with the hash of the password |
| Scenarios.RegisterLoginRefresh | user_handlers.go:89-210 | register, login and refresh all succeed, and both session tokens validate to the new user's id |
| Scenarios.UniformLoginRefusal | user_handlers.go:107-117 | an unknown e-mail and a wrong password get identical responses |
| Scenarios.RefreshWithoutHeader | user_handlers.go:171-178 | without a header, the refresh handler writes two error documents; the corrected one writes one |
| Scenarios.WrongKeyUpgrade | webhook_handlers.go:27-56 | with a wrong key, the handler answers 401 and upgrades the user anyway; the corrected one does not upgrade |
| Scenarios.ExpiredRefreshRevoked | user_handlers.go:182-188 | a refresh record the lookup reports expired is revoked on first use, and both uses are refused with 401 |

## Left out

- Token text: the base64url JSON `header.claims.signature` form is replaced
  by a length-prefixed field encoding. HMAC-SHA256 is replaced by an
  idealised tag from which key and message can be read back. Two things
  follow: a forged token can only come from knowing the secret, and the
  model says nothing about the strength of the real hash.
- Library details of validation: golang-jwt's `nbf` check and clock leeway
  are not modelled, and the refusal texts are shortened.
- The `!tok.Valid` branch (internal/auth/jwt.go:47-49) is not modelled. The
  library returns an error for every invalid token, so the branch is never
  reached.
- The signing error of `MakeJWT` (internal/auth/jwt.go:25-27) and the
  handler branches on it (user_handlers.go:119-123, 191-195) are not
  modelled. HMAC signing with a byte key does not fail.
- Password hashing: the internal/auth password file is not part of this
  model. `Password` is an idealised salted hash. It does not model bcrypt's
  cost or its 72-byte limit, and it does not model that a real hash hides
  the password.
- The SQL queries and schema (internal/database) are not part of this
  model. `Database.Db` stands in for them:
  - the caller chooses new ids;
  - the lookup's `expired` column is computed by the query, which is not
    part of this model; it is an input of `Database.Db.GetToken` and of the
    refresh handler. The handler tests only that column, never `expires_at`
    or `revoked_at`. Whether a record past its expiry, or one already
    revoked, still refreshes therefore depends on that query and is not
    stated here;
  - a failed query yields either the store's own error or "no rows";
  - no cascade on reset is modelled.
- `SetUserIsChirpyRed` is modelled as a statement that fails only through
  the store. A webhook for an unknown user therefore gets 204.
- Response order: `GetAllChirps` returns a set, so the row order of the
  listing is not modelled.
- JSON: request decoding is an input `Result`, and decoder error texts are
  passed through as given. `json.Marshal` failures are not modelled; they
  cannot happen for these types. Content-Type headers are not modelled.
- Clock, randomness and key extraction are parameters: `time.Now` is `now`
  in whole seconds; the random bytes and the password salt are inputs; the
  API key extractor `GetAPIKey` is opaque and its result is an input.
- `polkaKey` is not declared in config.go; it is modelled as a field of
  `Config.ApiConfig`.
- Identifier parsing accepts only the 36-character dashed form. The 32-digit,
  braced and `urn:uuid:` forms that Go's parser also takes are not modelled.
  Every parse failure has the single text "invalid UUID format"; Go's
  separate "invalid UUID length" message is not distinguished.
- Text is a sequence of Unicode scalar values. The decoder's replacement of
  invalid UTF-8 happens before the model sees the text.
- Concurrency: requests run one at a time, so the atomic counter is a plain
  field.
- Routing (main.go), `handlerHealthz` and server start-up are not part of
  this model. main.go registers no route for `PUT /api/users`,
  `DELETE /api/chirps/{chirpID}` or the webhook.

## Findings

| source | as written | input that shows it | evidently intended | confidence | as-written member | corrected member |
|---|---|---|---|---|---|---|
| user_handlers.go:172-174 | A missing Authorization header writes 401 and the handler carries on. It looks up the empty token, and a second error document is appended to the body. | `POST /api/refresh` without an Authorization header against an empty store: the body is `{"error":"Error: Header did not contain authorization"}{"error":"Error: sql: no rows in result set"}`. Scenarios.RefreshWithoutHeader proves it. | Return after the 401. | not executed; high | UserHandlers.HandlerPostRefresh | UserHandlers.HandlerPostRefreshCorrected |
| webhook_handlers.go:27-30 | A key different from the configured one writes 401 and the handler carries on. A "user.upgraded" event still upgrades the user. | A wrong API key with `{"event":"user.upgraded","data":{"user_id":<existing user>}}`: status 401, and the user's Chirpy Red flag is set. Scenarios.WrongKeyUpgrade proves it. | Return after the 401, leaving the user unchanged. | not executed; high | WebhookHandlers.HandlerPostPolkaWebhooks | WebhookHandlers.HandlerPostPolkaWebhooksCorrected |

=== FILE: chirp_handlers.dfy ===
/**
 * Posting, listing, reading and deleting chirps. A posted body is limited
 * to 140 bytes of UTF-8 and cleaned of six listed words, each replaced by
 * "****" in list order; the author is the session token's subject.
 */
module ChirpHandlers {
  import opened Common
  import opened Http
  import Database
  import Config
  import Jwt
  import Uuid

  const MaxChirpLength := 140
  const TooLong := "chirp is too long"
  const NotOwner := "cannot delete other peoples chirps"
  const Mask := "****"
  const NotAllowed: seq<string> := ["kerfuffle", "sharbert", "fornax", "Kerfuffle", "Sharbert", "Fornax"]

  /** The decoded request body; `userId` is read but never used. */
  datatype ChirpRequest = ChirpRequest(body: string, userId: Uuid.Uuid)

  // ---------------------------------------------------------------------
  // Length in bytes
  // ---------------------------------------------------------------------

  /** Bytes in the UTF-8 encoding of one scalar value. */
  function RuneLength(c: char): (n: nat)
    ensures 1 <= n <= 4
    ensures n == 1 <==> c as int < 0x80
  {
    if c as int < 0x80 then 1
    else if c as int < 0x800 then 2
    else if c as int < 0x1_0000 then 3
    else 4
  }

  /** Bytes in the UTF-8 encoding of `s`, which is what a length check on a Go string counts. */
  function Utf8Length(s: string): (n: nat)
    ensures |s| <= n <= 4 * |s|
  {
    if |s| == 0 then 0 else Utf8Length(s[..|s| - 1]) + RuneLength(s[|s| - 1])
  }

  /** For text of single-byte characters, bytes and characters agree. */
  lemma {:induction false} AsciiLength(s: string)
    requires forall i :: 0 <= i < |s| ==> s[i] as int < 0x80
    ensures Utf8Length(s) == |s|
  {
    if |s| > 0 {
      AsciiLength(s[..|s| - 1]);
    }
  }

  /** Any non-ASCII character makes the byte count exceed the character count. */
  lemma {:induction false} WideLength(s: string, i: nat)
    requires i < |s| && s[i] as int >= 0x80
    ensures Utf8Length(s) > |s|
  {
    if i < |s| - 1 {
      WideLength(s[..|s| - 1], i);
    }
  }

  // ---------------------------------------------------------------------
  // Cleaning
  // ---------------------------------------------------------------------

  /** `w` occurs in `s` starting at position `i`. */
  predicate OccursAt(s: string, w: string, i: int) {
    0 <= i && i + |w| <= |s| && s[i..i + |w|] == w
  }

  /** `w` occurs nowhere in `s`. */
  predicate Free(s: string, w: string) {
    forall i :: 0 <= i <= |s| ==> !OccursAt(s, w, i)
  }

  /** No character of `r` appears in `w`. */
  predicate Disjoint(r: string, w: string) {
    forall i :: 0 <= i < |r| ==> r[i] !in w
  }

  /**
   * Every non-overlapping occurrence of `w` in `s`, found left to right,
   * replaced by `r`.
   */
  function ReplaceAll(s: string, w: string, r: string): (t: string)
    requires |w| > 0
    ensures |s| < |w| ==> t == s
    ensures Free(s, w) ==> t == s
    decreases |s|
  {
    if |s| < |w| then s
    else if s[..|w|] == w then
      assert OccursAt(s, w, 0);
      r + ReplaceAll(s[|w|..], w, r)
    else
      FreeSuffix(s, w, 1);
      assert s == [s[0]] + s[1..];
      [s[0]] + ReplaceAll(s[1..], w, r)
  }

  /** The listed words of `words`, applied in order, each replaced by the mask. */
  function CleanWith(s: string, words: seq<string>): (r: string)
    requires forall k :: 0 <= k < |words| ==> |words[k]| > 0
    ensures (forall k :: 0 <= k < |words| ==> Free(s, words[k])) ==> r == s
  {
    if |words| == 0 then s
    else ReplaceAll(CleanWith(s, words[..|words| - 1]), words[|words| - 1], Mask)
  }

  /** None of the first `m` characters of `s` is `c`. */
  predicate Avoids(s: string, c: char, m: nat)
    requires m <= |s|
  {
    forall j :: 0 <= j < m ==> s[j] != c
  }

  /**
   * As long as the first character of the replacement has not appeared,
   * the output of `ReplaceAll` is the input.
   */
  lemma {:induction false} PrefixShape(t: string, w: string, r: string, m: nat)
    requires |w| > 0 && |r| > 0
    requires m <= |ReplaceAll(t, w, r)|
    ensures Avoids(ReplaceAll(t, w, r), r[0], m) ==> m <= |t| && ReplaceAll(t, w, r)[..m] == t[..m]
    decreases |t|
  {
    if |t| < |w| || m == 0 {
    } else if t[..|w|] == w {
      assert ReplaceAll(t, w, r)[0] == r[0];
    } else {
      var out := ReplaceAll(t, w, r);
      var rest := ReplaceAll(t[1..], w, r);
      assert out == [t[0]] + rest;
      PrefixShape(t[1..], w, r, m - 1);
      if Avoids(out, r[0], m) {
        forall j | 0 <= j < m - 1
          ensures rest[j] != r[0]
        {
          assert rest[j] == out[j + 1];
        }
        assert out[..m] == [t[0]] + rest[..m - 1];
      }
    }
  }

  /** A suffix of text free of `w` is free of `w`. */
  lemma FreeSuffix(s: string, w: string, k: nat)
    requires k <= |s|
    ensures Free(s, w) ==> Free(s[k..], w)
  {
    if Free(s, w) {
      forall i | 0 <= i <= |s[k..]|
        ensures !OccursAt(s[k..], w, i)
      {
        if i + |w| <= |s[k..]| {
          assert s[i + k..i + k + |w|] == s[k..][i..i + |w|];
          assert !OccursAt(s, w, i + k);
        }
      }
    }
  }

  /** Prefixing text free of `w` with characters foreign to `w` keeps it free of `w`. */
  lemma FreeAfterMask(r: string, rest: string, w: string)
    requires |w| > 0 && Disjoint(r, w) && Free(rest, w)
    ensures Free(r + rest, w)
  {
    var t := r + rest;
    forall i | 0 <= i <= |t|
      ensures !OccursAt(t, w, i)
    {
      if i + |w| <= |t| {
        if i < |r| {
          assert t[i..i + |w|][0] == r[i];
        } else {
          assert rest[i - |r|..i - |r| + |w|] == t[i..i + |w|];
          assert !OccursAt(rest, w, i - |r|);
        }
      }
    }
  }

  /**
   * If `w` sits at the front of `[c] + rest`, the rest of `w` sits at the
   * front of `rest`, so `rest` shows no character foreign to `w` there.
   */
  lemma FrontTail(c: char, rest: string, w: string, x: char)
    requires |w| > 0 && x !in w
    requires OccursAt([c] + rest, w, 0)
    ensures |w| - 1 <= |rest| && rest[..|w| - 1] == w[1..]
    ensures Avoids(rest, x, |w| - 1)
  {
    assert ([c] + rest)[..|w|] == [c] + rest[..|w| - 1];
    forall j | 0 <= j < |w| - 1
      ensures rest[j] != x
    {
      assert rest[j] == w[j + 1];
    }
  }

  /**
   * Below one unreplaced character, an occurrence of `w` at the front of the
   * output would already have been one at the front of the input.
   */
  lemma FrontOccurrence(c: char, tail: string, v: string, r: string, w: string)
    requires |v| > 0 && |r| > 0 && |w| > 0 && Disjoint(r, w)
    ensures OccursAt([c] + ReplaceAll(tail, v, r), w, 0) ==> OccursAt([c] + tail, w, 0)
  {
    var rest := ReplaceAll(tail, v, r);
    if OccursAt([c] + rest, w, 0) {
      assert r[0] !in w;
      FrontTail(c, rest, w, r[0]);
      PrefixShape(tail, v, r, |w| - 1);
      assert ([c] + tail)[..|w|] == [c] + tail[..|w| - 1];
    }
  }

  /** A character put in front of text free of `w` leaves it free of `w` unless `w` now starts there. */
  lemma FreeAfterFront(c: char, rest: string, w: string)
    requires Free(rest, w) && !OccursAt([c] + rest, w, 0)
    ensures Free([c] + rest, w)
  {
    var t := [c] + rest;
    forall i | 1 <= i <= |t|
      ensures !OccursAt(t, w, i)
    {
      if i + |w| <= |t| {
        assert rest[i - 1..i - 1 + |w|] == t[i..i + |w|];
        assert !OccursAt(rest, w, i - 1);
      }
    }
  }

  /** Putting an unreplaced character in front of clean output keeps it clean. */
  lemma FreeAfterChar(c: char, tail: string, v: string, r: string, w: string)
    requires |v| > 0 && |r| > 0 && |w| > 0 && Disjoint(r, w)
    requires Free(ReplaceAll(tail, v, r), w)
    requires !OccursAt([c] + tail, w, 0)
    ensures Free([c] + ReplaceAll(tail, v, r), w)
  {
    FrontOccurrence(c, tail, v, r, w);
    FreeAfterFront(c, ReplaceAll(tail, v, r), w);
  }

  /**
   * After replacing `v`, the word `w` does not occur, provided the
   * replacement shares no character with `w` and either `w` is `v` itself or
   * `w` did not occur before.
   */
  lemma {:induction false} ReplaceAllFree(s: string, v: string, r: string, w: string)
    requires |v| > 0 && |r| > 0 && |w| > 0
    requires Disjoint(r, w)
    requires w == v || Free(s, w)
    ensures Free(ReplaceAll(s, v, r), w)
    decreases |s|
  {
    if |s| < |v| {
    } else if s[..|v|] == v {
      if w != v {
        FreeSuffix(s, w, |v|);
      }
      ReplaceAllFree(s[|v|..], v, r, w);
      FreeAfterMask(r, ReplaceAll(s[|v|..], v, r), w);
    } else {
      if w != v {
        FreeSuffix(s, w, 1);
      }
      ReplaceAllFree(s[1..], v, r, w);
      assert s == [s[0]] + s[1..];
      assert !OccursAt(s, w, 0);
      FreeAfterChar(s[0], s[1..], v, r, w);
    }
  }

  /** An occurrence at the front becomes `r`. */
  lemma ReplaceAllFront(s: string, w: string, r: string)
    requires |w| > 0 && OccursAt(s, w, 0)
    ensures ReplaceAll(s, w, r) == r + ReplaceAll(s[|w|..], w, r)
  {
    assert s[..|w|] == w;
  }

  /** Without an occurrence at the front, the first character is kept. */
  lemma ReplaceAllSkip(s: string, w: string, r: string)
    requires |w| > 0 && |w| <= |s| && !OccursAt(s, w, 0)
    ensures ReplaceAll(s, w, r) == [s[0]] + ReplaceAll(s[1..], w, r)
  {
  }

  /**
   * At the first occurrence of `w`, the text before it is kept, the
   * occurrence becomes `r`, and replacing goes on after it. With the
   * identity on text free of `w`, this determines `ReplaceAll` completely.
   */
  lemma {:induction false} ReplaceAllSplice(x: string, w: string, y: string, r: string)
    requires |w| > 0
    requires forall i :: 0 <= i < |x| ==> !OccursAt(x + w + y, w, i)
    ensures ReplaceAll(x + w + y, w, r) == x + r + ReplaceAll(y, w, r)
    decreases |x|
  {
    if |x| == 0 {
      assert x + w + y == w + y;
      ReplaceAllFront(w + y, w, r);
      assert (w + y)[|w|..] == y;
    } else {
      var s, x' := x + w + y, x[1..];
      assert s[1..] == x' + w + y;
      ReplaceAllSkip(s, w, r);
      NoOccurrenceAfterFront(x, w, y);
      ReplaceAllSplice(x', w, y, r);
      ConsStep(x, ReplaceAll(s, w, r), ReplaceAll(x' + w + y, w, r), r, ReplaceAll(y, w, r));
    }
  }

  /** Putting back the first character in front of a split of the rest. */
  lemma ConsStep(x: string, t: string, u: string, r: string, v: string)
    requires |x| > 0 && t == [x[0]] + u && u == x[1..] + r + v
    ensures t == x + r + v
  {
    assert x == [x[0]] + x[1..];
  }

  /** Occurrences in `x[1..] + w + y` are those of `x + w + y` shifted by one. */
  lemma NoOccurrenceAfterFront(x: string, w: string, y: string)
    requires |x| > 0
    requires forall i :: 0 <= i < |x| ==> !OccursAt(x + w + y, w, i)
    ensures forall i :: 0 <= i < |x| - 1 ==> !OccursAt(x[1..] + w + y, w, i)
  {
    var s := x + w + y;
    assert s[1..] == x[1..] + w + y;
    forall i | 0 <= i < |x| - 1
      ensures !OccursAt(x[1..] + w + y, w, i)
    {
      assert !OccursAt(s, w, i + 1);
      if i + |w| <= |s| - 1 {
        assert s[1..][i..i + |w|] == s[i + 1..i + 1 + |w|];
      }
    }
  }

  /** Text without the first character of `w` holds no occurrence of `w`. */
  lemma NoEarlierOccurrence(x: string, w: string, y: string)
    requires |w| > 0 && w[0] !in x
    ensures forall i :: 0 <= i < |x| ==> !OccursAt(x + w + y, w, i)
  {
    forall i | 0 <= i < |x|
      ensures !OccursAt(x + w + y, w, i)
    {
      if i + |w| <= |x + w + y| {
        assert (x + w + y)[i..i + |w|][0] == x[i];
      }
    }
  }

  /** The mask shares no character with any listed word. */
  lemma MaskDisjoint(words: seq<string>, k: nat)
    requires forall j :: 0 <= j < |words| ==> '*' !in words[j]
    requires k < |words|
    ensures Disjoint(Mask, words[k])
  {
  }

  /** After cleaning, none of the words occurs. */
  lemma {:induction false} CleanWithFree(s: string, words: seq<string>, k: nat)
    requires forall j :: 0 <= j < |words| ==> |words[j]| > 0 && '*' !in words[j]
    requires k < |words|
    ensures Free(CleanWith(s, words), words[k])
    decreases |words|
  {
    var n := |words| - 1;
    MaskDisjoint(words, k);
    if k < n {
      CleanWithFree(s, words[..n], k);
      ReplaceAllFree(CleanWith(s, words[..n]), words[n], Mask, words[k]);
    } else {
      ReplaceAllFree(CleanWith(s, words[..n]), words[n], Mask, words[k]);
    }
  }

  /** The cleaning the handler applies: the six listed words, in list order. */
  function Clean(body: string): (r: string)
    ensures forall k :: 0 <= k < |NotAllowed| ==> Free(r, NotAllowed[k])
    ensures (forall k :: 0 <= k < |NotAllowed| ==> Free(body, NotAllowed[k])) ==> r == body
  {
    assert forall k :: 0 <= k < |NotAllowed| ==> Free(CleanWith(body, NotAllowed), NotAllowed[k]) by {
      forall k | 0 <= k < |NotAllowed|
        ensures Free(CleanWith(body, NotAllowed), NotAllowed[k])
      {
        CleanWithFree(body, NotAllowed, k);
      }
    }
    CleanWith(body, NotAllowed)
  }

  /** Cleaning twice is cleaning once. */
  lemma CleanIdempotent(s: string)
    ensures Clean(Clean(s)) == Clean(s)
  {
  }

  /** A word with a character the text lacks does not occur in it. */
  lemma MissingCharFree(s: string, w: string, c: char)
    requires c in w && c !in s
    ensures Free(s, w)
  {
    forall i | 0 <= i <= |s|
      ensures !OccursAt(s, w, i)
    {
      if i + |w| <= |s| {
        var k :| 0 <= k < |w| && w[k] == c;
        assert s[i..i + |w|][k] == s[i + k];
      }
    }
  }

  /** The last word's pass runs on the text the earlier passes produce. */
  lemma CleanWithLast(s: string, words: seq<string>)
    requires |words| > 0 && forall j :: 0 <= j < |words| ==> |words[j]| > 0
    ensures CleanWith(s, words) == ReplaceAll(CleanWith(s, words[..|words| - 1]), words[|words| - 1], Mask)
  {
  }

  /** Once the first `k` passes give `t`, passes for words absent from `t` change nothing. */
  lemma {:induction false} CleanWithLater(s: string, words: seq<string>, k: nat, t: string)
    requires forall j :: 0 <= j < |words| ==> |words[j]| > 0
    requires k <= |words| && CleanWith(s, words[..k]) == t
    requires forall j :: k <= j < |words| ==> Free(t, words[j])
    ensures CleanWith(s, words) == t
    decreases |words|
  {
    if |words| > k {
      var n := |words| - 1;
      var front := words[..n];
      assert front[..k] == words[..k];
      assert forall j :: k <= j < |front| ==> front[j] == words[j];
      CleanWithLater(s, front, k, t);
      assert Free(t, words[n]);
      CleanWithLast(s, words);
    } else {
      assert words[..k] == words;
    }
  }

  /** A single pass masks the first occurrence of a word whose first character is absent before it. */
  lemma MaskFirst(x: string, w: string, y: string)
    requires |w| > 0 && w[0] !in x
    ensures CleanWith(x + w + y, [w]) == x + Mask + ReplaceAll(y, w, Mask)
  {
    CleanWithLast(x + w + y, [w]);
    assert [w][..0] == [];
    NoEarlierOccurrence(x, w, y);
    ReplaceAllSplice(x, w, y, Mask);
  }

  /** The first pass masks the one listed word of the example chirp. */
  lemma FirstPassMasks()
    ensures CleanWith("I love " + "kerfuffle" + " pie", NotAllowed[..1]) == "I love " + Mask + " pie"
  {
    assert NotAllowed[..1] == ["kerfuffle"];
    MaskFirst("I love ", "kerfuffle", " pie");
  }

  /** The masked example chirp holds no other listed word. */
  lemma MaskedExampleClean()
    ensures forall j :: 1 <= j < |NotAllowed| ==> Free("I love " + Mask + " pie", NotAllowed[j])
  {
    var t := "I love " + Mask + " pie";
    MissingCharFree(t, NotAllowed[1], 's');
    MissingCharFree(t, NotAllowed[2], 'f');
    MissingCharFree(t, NotAllowed[3], 'K');
    MissingCharFree(t, NotAllowed[4], 'S');
    MissingCharFree(t, NotAllowed[5], 'F');
  }

  /**
   * A listed word in a chirp becomes "****" and the text around it is
   * kept: "I love kerfuffle pie" is cleaned to "I love **** pie".
   */
  lemma ListedWordMasked()
    ensures Clean("I love " + "kerfuffle" + " pie") == "I love " + Mask + " pie"
  {
    assert forall j :: 0 <= j < |NotAllowed| ==> |NotAllowed[j]| > 0;
    FirstPassMasks();
    MaskedExampleClean();
    CleanWithLater("I love " + "kerfuffle" + " pie", NotAllowed, 1, "I love " + Mask + " pie");
  }

  /** Matching is exact and case-sensitive: an upper-case form that is not listed survives. */
  lemma UnlistedFormSurvives()
    ensures Clean("KERFUFFLE") == "KERFUFFLE"
  {
    var loud := "KERFUFFLE";
    MissingCharFree(loud, NotAllowed[0], 'e');
    MissingCharFree(loud, NotAllowed[1], 'e');
    MissingCharFree(loud, NotAllowed[2], 'o');
    MissingCharFree(loud, NotAllowed[3], 'e');
    MissingCharFree(loud, NotAllowed[4], 'e');
    MissingCharFree(loud, NotAllowed[5], 'o');
  }

  /**
   * Removes the listed words one pass per word, in list order, the way the
   * handler's loop does.
   */
  method CleanChirp(body: string) returns (cleaned: string)
    ensures cleaned == Clean(body)
    ensures forall k :: 0 <= k < |NotAllowed| ==> Free(cleaned, NotAllowed[k])
  {
    cleaned := body;
    for i := 0 to |NotAllowed|
      invariant cleaned == CleanWith(body, NotAllowed[..i])
    {
      assert NotAllowed[..i + 1][..i] == NotAllowed[..i];
      cleaned := ReplaceAll(cleaned, NotAllowed[i], Mask);
    }
    assert NotAllowed[..|NotAllowed|] == NotAllowed;
  }

  // ---------------------------------------------------------------------
  // Handlers
  // ---------------------------------------------------------------------

  /**
   * The second half of POST /api/chirps, once the author is known: an
   * over-long body is refused with 400 "chirp is too long"; otherwise the
   * cleaned body is stored under `userID`.
   */
  method SaveChirp(cfg: Config.ApiConfig, userID: Uuid.Uuid, body: string, now: Database.Time,
                   newId: Uuid.Uuid, createFault: Option<string>)
    returns (resp: Response)
    requires cfg.db.Valid()
    modifies cfg.db`chirps
    ensures cfg.db.Valid()
    ensures Utf8Length(body) > MaxChirpLength ==>
              resp == Fresh.WriteHeader(400).Write(ErrorJson(TooLong)) && cfg.db.chirps == old(cfg.db.chirps)
    ensures Utf8Length(body) <= MaxChirpLength && (createFault.Some? || newId in old(cfg.db.chirps)) ==>
              resp == ErrorResponse(Database.InsertError(createFault), 500) && cfg.db.chirps == old(cfg.db.chirps)
    ensures Utf8Length(body) <= MaxChirpLength && createFault.None? && newId !in old(cfg.db.chirps) ==>
              var c := Database.Chirp(newId, now, now, Clean(body), userID);
              && resp == Fresh.WriteHeader(201).Write(ChirpJson(c))
              && cfg.db.chirps == old(cfg.db.chirps)[newId := c]
  {
    if Utf8Length(body) > MaxChirpLength {
      return Fresh.WriteHeader(400).Write(ErrorJson(TooLong));
    }
    var cleaned := CleanChirp(body);
    var chirp := cfg.db.CreateChirp(newId, cleaned, userID, now, createFault);
    if chirp.Err? {
      return ErrorResponse(chirp.error, 500);
    }
    resp := Fresh.WriteHeader(201).Write(ChirpJson(chirp.value));
  }

  /**
   * POST /api/chirps: a missing header is refused with 403 and a bad session
   * token with 401; the chirp's author is the token's user, whatever the body
   * names.
   */
  method HandlerPostChirps(cfg: Config.ApiConfig, authorization: string, now: Database.Time,
                           params: Result<ChirpRequest>, newId: Uuid.Uuid,
                           getFault: Option<string>, createFault: Option<string>)
    returns (resp: Response)
    requires cfg.db.Valid()
    modifies cfg.db`chirps
    ensures cfg.db.Valid()
    ensures authorization == "" ==>
              resp == ErrorResponse(Jwt.MissingAuthorization, 403) && cfg.db.chirps == old(cfg.db.chirps)
    ensures var v := Jwt.ValidateJWT(Jwt.Credential(authorization), cfg.jwtSecret, now);
            && (authorization != "" && v.err.Some? ==>
                  resp == ErrorResponse(Jwt.Message(v.err.value), 401) && cfg.db.chirps == old(cfg.db.chirps))
            && (authorization != "" && v.err.None? && params.Err? ==>
                  resp == ErrorResponse(params.error, 500) && cfg.db.chirps == old(cfg.db.chirps))
            && (authorization != "" && v.err.None? && params.Ok? && (getFault.Some? || v.userID !in cfg.db.users) ==>
                  resp == ErrorResponse(Database.RowError(getFault), 500) && cfg.db.chirps == old(cfg.db.chirps))
    ensures var v := Jwt.ValidateJWT(Jwt.Credential(authorization), cfg.jwtSecret, now);
            authorization != "" && v.err.None? && params.Ok? && getFault.None? && v.userID in cfg.db.users ==>
              var body := params.value.body;
              && (Utf8Length(body) > MaxChirpLength ==>
                    resp == Fresh.WriteHeader(400).Write(ErrorJson(TooLong)) && cfg.db.chirps == old(cfg.db.chirps))
              && (Utf8Length(body) <= MaxChirpLength && (createFault.Some? || newId in old(cfg.db.chirps)) ==>
                    resp == ErrorResponse(Database.InsertError(createFault), 500) && cfg.db.chirps == old(cfg.db.chirps))
              && (Utf8Length(body) <= MaxChirpLength && createFault.None? && newId !in old(cfg.db.chirps) ==>
                    var c := Database.Chirp(newId, now, now, Clean(body), v.userID);
                    && resp == Fresh.WriteHeader(201).Write(ChirpJson(c))
                    && cfg.db.chirps == old(cfg.db.chirps)[newId := c])
  {
    var token := Jwt.GetBearerToken(authorization);
    if token.Err? {
      return ErrorResponse(token.error, 403);
    }
    var validated := Jwt.ValidateJWT(token.value, cfg.jwtSecret, now);
    if validated.err.Some? {
      return ErrorResponse(Jwt.Message(validated.err.value), 401);
    }
    var userID := validated.userID;
    if params.Err? {
      return ErrorResponse(params.error, 500);
    }
    var user := cfg.db.GetUser(userID, getFault);
    if user.Err? {
      return ErrorResponse(user.error, 500);
    }
    resp := SaveChirp(cfg, userID, params.value.body, now, newId, createFault);
  }

  /** GET /api/chirps: every stored chirp. */
  method HandlerGetChirps(cfg: Config.ApiConfig, fault: Option<string>) returns (resp: Response)
    ensures fault.Some? ==> resp == ErrorResponse(fault.value, 500)
    ensures fault.None? ==> resp == Fresh.WriteHeader(200).Write(ChirpsJson(cfg.db.chirps.Values))
  {
    var chirps := cfg.db.GetAllChirps(fault);
    if chirps.Err? {
      return ErrorResponse(chirps.error, 500);
    }
    resp := Fresh.WriteHeader(200).Write(ChirpsJson(chirps.value));
  }

  /** GET /api/chirps/{chirpID}: the chirp, or 404 for an unparseable or unknown id. */
  method HandlerGetChirp(cfg: Config.ApiConfig, chirpID: string, fault: Option<string>) returns (resp: Response)
    ensures Uuid.Parse(chirpID).None? ==> resp == ErrorResponse(Uuid.FormatError, 404)
    ensures var id := Uuid.Parse(chirpID);
            && (id.Some? && (fault.Some? || id.value !in cfg.db.chirps) ==>
                  resp == ErrorResponse(Database.RowError(fault), 404))
            && (id.Some? && fault.None? && id.value in cfg.db.chirps ==>
                  resp == Fresh.WriteHeader(200).Write(ChirpJson(cfg.db.chirps[id.value])))
  {
    var id := Uuid.Parse(chirpID);
    if id.None? {
      return ErrorResponse(Uuid.FormatError, 404);
    }
    var chirp := cfg.db.GetChirp(id.value, fault);
    if chirp.Err? {
      return ErrorResponse(chirp.error, 404);
    }
    resp := Fresh.WriteHeader(200).Write(ChirpJson(chirp.value));
  }

  /**
   * DELETE /api/chirps/{chirpID}: only the chirp's author, as named by the
   * session token, may delete it.
   */
  method HandlerDeleteChirp(cfg: Config.ApiConfig, authorization: string, now: Database.Time, chirpID: string,
                            getFault: Option<string>, deleteFault: Option<string>)
    returns (resp: Response)
    requires cfg.db.Valid()
    modifies cfg.db`chirps
    ensures cfg.db.Valid()
    ensures resp.Status() != 204 ==> cfg.db.chirps == old(cfg.db.chirps)
    ensures authorization == "" ==> resp == ErrorResponse(Jwt.MissingAuthorization, 401)
    ensures var v := Jwt.ValidateJWT(Jwt.Credential(authorization), cfg.jwtSecret, now);
            var id := Uuid.Parse(chirpID);
            && (authorization != "" && v.err.Some? ==> resp == ErrorResponse(Jwt.Message(v.err.value), 401))
            && (authorization != "" && v.err.None? && id.None? ==> resp == ErrorResponse(Uuid.FormatError, 404))
            && (authorization != "" && v.err.None? && id.Some? && (getFault.Some? || id.value !in old(cfg.db.chirps)) ==>
                  resp == ErrorResponse(Database.RowError(getFault), 404))
            && (authorization != "" && v.err.None? && id.Some? && getFault.None? && id.value in old(cfg.db.chirps) ==>
                  && (old(cfg.db.chirps)[id.value].userId != v.userID ==> resp == ErrorResponse(NotOwner, 403))
                  && (old(cfg.db.chirps)[id.value].userId == v.userID && deleteFault.Some? ==>
                        resp == ErrorResponse(deleteFault.value, 500))
                  && (old(cfg.db.chirps)[id.value].userId == v.userID && deleteFault.None? ==>
                        resp == Fresh.WriteHeader(204) && cfg.db.chirps == old(cfg.db.chirps) - {id.value}))
    ensures resp.Status() == 204 ==>
              var v := Jwt.ValidateJWT(Jwt.Credential(authorization), cfg.jwtSecret, now);
              var id := Uuid.Parse(chirpID);
              && authorization != "" && v.err.None? && id.Some? && id.value in old(cfg.db.chirps)
              && old(cfg.db.chirps)[id.value].userId == v.userID
  {
    var token := Jwt.GetBearerToken(authorization);
    if token.Err? {
      return ErrorResponse(token.error, 401);
    }
    var validated := Jwt.ValidateJWT(token.value, cfg.jwtSecret, now);
    if validated.err.Some? {
      return ErrorResponse(Jwt.Message(validated.err.value), 401);
    }
    var userID := validated.userID;
    var id := Uuid.Parse(chirpID);
    if id.None? {
      return ErrorResponse(Uuid.FormatError, 404);
    }
    var chirp := cfg.db.GetChirp(id.value, getFault);
    if chirp.Err? {
      return ErrorResponse(chirp.error, 404);
    }
    if chirp.value.userId != userID {
      return ErrorResponse(NotOwner, 403);
    }
    var err := cfg.db.DeleteChirp(id.value, deleteFault);
    if err.Some? {
      return ErrorResponse(err.value, 500);
    }
    resp := Fresh.WriteHeader(204);
  }
}

=== FILE: common.dfy ===
/** Optional values and Go-style `(value, error)` results, where an error is its message. */
module Common {

  datatype Option<+T> = None | Some(value: T)

  /** The outcome of a Go call returning `(T, error)`: a value, or the error's text. */
  datatype Result<+T> = Ok(value: T) | Err(error: string)

  /** An 8-bit unsigned value, Go's `byte`. */
  newtype byte = b: int | 0 <= b < 256
}

=== FILE: config.dfy ===
/**
 * The shared API configuration: the visit counter behind the file server,
 * the admin metrics page and the platform-gated reset.
 */
module Config {
  import opened Common
  import opened Http
  import Database
  import Decimal

  /** Go's `int32`, the width of the atomic visit counter. */
  newtype int32 = x: int | -0x8000_0000 <= x < 0x8000_0000

  /**
   * Adding one to an `int32`, wrapping from the largest value to the
   * smallest: exactly one more modulo 2^32, and plain `+ 1` below the maximum.
   */
  function Inc32(x: int32): (y: int32)
    ensures (y as int - x as int) % 0x1_0000_0000 == 1
    ensures x < 0x7fff_ffff ==> y as int == x as int + 1
  {
    if x == 0x7fff_ffff then -0x8000_0000 else x + 1
  }

  const MetricsPrefix := "<html><body><h1>Welcome, Chirpy Admin</h1><p>Chirpy has been visited "
  const MetricsSuffix := " times!</p></body></html>"

  /** The admin page reporting `n` visits; an admin reading it gets `n` back. */
  function MetricsPage(n: int32): (page: string)
    ensures ReportedVisits(page) == Some(n as int)
  {
    var d := Decimal.IntToString(n as int);
    var page := MetricsPrefix + d + MetricsSuffix;
    assert page[..|MetricsPrefix|] == MetricsPrefix;
    assert page[|page| - |MetricsSuffix|..] == MetricsSuffix;
    assert page[|MetricsPrefix|..|page| - |MetricsSuffix|] == d;
    Decimal.IntRoundTrip(n as int);
    page
  }

  /** The count an admin reads off a metrics page, if the page has that shape. */
  function ReportedVisits(page: string): Option<int> {
    if |page| >= |MetricsPrefix| + |MetricsSuffix|
       && page[..|MetricsPrefix|] == MetricsPrefix
       && page[|page| - |MetricsSuffix|..] == MetricsSuffix
    then Decimal.StringToInt(page[|MetricsPrefix|..|page| - |MetricsSuffix|])
    else None
  }

  class ApiConfig {
    var fileserverHits: int32
    const db: Database.Db
    const platform: string
    const jwtSecret: string
    /** The billing provider's API key. */
    const polkaKey: string

    constructor(db: Database.Db, platform: string, jwtSecret: string, polkaKey: string)
      ensures this.db == db && this.platform == platform
      ensures this.jwtSecret == jwtSecret && this.polkaKey == polkaKey
      ensures fileserverHits == 0
    {
      this.db := db;
      this.platform := platform;
      this.jwtSecret := jwtSecret;
      this.polkaKey := polkaKey;
      fileserverHits := 0;
    }

    /**
     * The counting wrapper around a handler: counts the request, then lets
     * the wrapped handler write `next`, which it passes on untouched.
     */
    method MiddlewareMetricsInc(next: Response) returns (resp: Response)
      modifies this`fileserverHits
      ensures fileserverHits == Inc32(old(fileserverHits))
      ensures resp == next
    {
      fileserverHits := Inc32(fileserverHits);
      resp := next;
    }

    /** The metrics page: status 200 and the current count, leaving the counter alone. */
    method HandlerFileserverHits() returns (resp: Response)
      ensures resp.Status() == 200
      ensures resp.body == [Html(MetricsPage(fileserverHits))]
      ensures ReportedVisits(resp.body[0].page) == Some(fileserverHits as int)
    {
      var n := fileserverHits;
      resp := Fresh.WriteHeader(200).Write(Html(MetricsPage(n)));
    }

    /** Deletes every user, but only on the "dev" platform. */
    method HandlerResetUsers(fault: Option<string>) returns (resp: Response)
      requires db.Valid()
      modifies db`users
      ensures db.Valid()
      ensures platform != "dev" ==> resp == Fresh.WriteHeader(403) && db.users == old(db.users)
      ensures platform == "dev" && fault.Some? ==> resp == Fresh.WriteHeader(500) && db.users == old(db.users)
      ensures platform == "dev" && fault.None? ==> resp == Fresh.WriteHeader(200) && db.users == map[]
    {
      if platform != "dev" {
        return Fresh.WriteHeader(403);
      }
      var err := db.DeleteAllUsers(fault);
      if err.Some? {
        return Fresh.WriteHeader(500);
      }
      resp := Fresh.WriteHeader(200);
    }
  }
}

=== FILE: database.dfy ===
/**
 * The persistence collaborator: users, chirps and refresh-token records held
 * in maps, with one method per query the handlers issue. Each call takes
 * `fault`, the error the database reports on its own account (None when it
 * succeeds). A query that returns a row also fails when there is no such row;
 * a query that only executes a statement fails only through `fault`.
 */
module Database {
  import opened Common
  import Uuid

  /** Seconds since the epoch. */
  type Time = int

  const NoRows := "sql: no rows in result set"
  const DuplicateKey := "duplicate key value violates unique constraint"

  /** The error a row-returning query reports: the store's fault, or "no rows" when the row is missing. */
  function RowError(fault: Option<string>): string {
    if fault.Some? then fault.value else NoRows
  }

  /** The error an insert reports: the store's fault, or the unique-key violation. */
  function InsertError(fault: Option<string>): string {
    if fault.Some? then fault.value else DuplicateKey
  }

  /** Rows are keyed by their own identifiers, and e-mail addresses are unique. */
  ghost predicate Consistent(users: map<Uuid.Uuid, User>, chirps: map<Uuid.Uuid, Chirp>,
                             refreshTokens: map<string, RefreshTokenRecord>)
  {
    && (forall id :: id in users ==> users[id].id == id)
    && (forall id1, id2 :: id1 in users && id2 in users && users[id1].email == users[id2].email ==> id1 == id2)
    && (forall id :: id in chirps ==> chirps[id].id == id)
    && (forall t :: t in refreshTokens ==> refreshTokens[t].token == t)
  }

  datatype User = User(id: Uuid.Uuid, createdAt: Time, updatedAt: Time, email: string,
                       hashedPassword: string, isChirpyRed: bool)

  datatype Chirp = Chirp(id: Uuid.Uuid, createdAt: Time, updatedAt: Time, body: string, userId: Uuid.Uuid)

  /** A stored refresh token. */
  datatype RefreshTokenRecord = RefreshTokenRecord(token: string, createdAt: Time, updatedAt: Time,
                                                   userId: Uuid.Uuid, expiresAt: Time,
                                                   revokedAt: Option<Time>)

  /**
   * A refresh token as the lookup query returns it: the stored record and the
   * `expired` column the query computes when it runs.
   */
  datatype TokenLookup = TokenLookup(record: RefreshTokenRecord, expired: bool)

  class Db {
    var users: map<Uuid.Uuid, User>
    var chirps: map<Uuid.Uuid, Chirp>
    var refreshTokens: map<string, RefreshTokenRecord>

    ghost predicate Valid()
      reads this
    {
      Consistent(users, chirps, refreshTokens)
    }

    constructor(users: map<Uuid.Uuid, User>, chirps: map<Uuid.Uuid, Chirp>,
                refreshTokens: map<string, RefreshTokenRecord>)
      requires Consistent(users, chirps, refreshTokens)
      ensures Valid()
      ensures this.users == users && this.chirps == chirps && this.refreshTokens == refreshTokens
    {
      this.users := users;
      this.chirps := chirps;
      this.refreshTokens := refreshTokens;
    }

    /** The user holding `email`, if any. */
    function UserWithEmail(email: string): (r: Option<User>)
      reads this
      requires Valid()
      ensures r.Some? <==> exists id :: id in users && users[id].email == email
      ensures r.Some? ==> r.value.id in users && users[r.value.id] == r.value && r.value.email == email
    {
      if exists id :: id in users && users[id].email == email then
        var id :| id in users && users[id].email == email;
        Some(users[id])
      else None
    }

    predicate EmailTaken(email: string, except: Option<Uuid.Uuid>)
      reads this
    {
      exists id :: id in users && users[id].email == email && Some(id) != except
    }

    method CreateUser(id: Uuid.Uuid, email: string, hashedPassword: string, now: Time, fault: Option<string>)
      returns (r: Result<User>)
      requires Valid()
      modifies this`users
      ensures Valid()
      ensures r.Ok? <==> fault.None? && id !in old(users) && !old(EmailTaken(email, None))
      ensures r.Ok? ==> r.value == User(id, now, now, email, hashedPassword, false)
      ensures r.Ok? ==> users == old(users)[id := r.value]
      ensures r.Err? ==> r.error == InsertError(fault) && users == old(users)
    {
      if fault.Some? {
        return Err(fault.value);
      }
      if id in users || EmailTaken(email, None) {
        return Err(DuplicateKey);
      }
      r := Ok(User(id, now, now, email, hashedPassword, false));
      users := users[id := r.value];
    }

    method GetUserByEmail(email: string, fault: Option<string>) returns (r: Result<User>)
      requires Valid()
      ensures r.Ok? <==> fault.None? && UserWithEmail(email).Some?
      ensures r.Err? ==> r.error == RowError(fault)
      ensures r.Ok? ==> r.value == UserWithEmail(email).value
    {
      if fault.Some? {
        return Err(fault.value);
      }
      var u := UserWithEmail(email);
      r := if u.Some? then Ok(u.value) else Err(NoRows);
    }

    method GetUser(id: Uuid.Uuid, fault: Option<string>) returns (r: Result<User>)
      ensures r.Ok? <==> fault.None? && id in users
      ensures r.Err? ==> r.error == RowError(fault)
      ensures r.Ok? ==> r.value == users[id]
    {
      if fault.Some? {
        return Err(fault.value);
      }
      r := if id in users then Ok(users[id]) else Err(NoRows);
    }

    /** Replaces e-mail and password hash of user `id` and stamps the update. */
    method UpdateUser(id: Uuid.Uuid, email: string, hashedPassword: string, now: Time, fault: Option<string>)
      returns (r: Result<User>)
      requires Valid()
      modifies this`users
      ensures Valid()
      ensures r.Ok? <==> fault.None? && id in old(users) && !old(EmailTaken(email, Some(id)))
      ensures r.Ok? ==> r.value == old(users)[id].(email := email, hashedPassword := hashedPassword, updatedAt := now)
      ensures r.Ok? ==> users == old(users)[id := r.value]
      ensures r.Err? ==> r.error == (if id in old(users) then InsertError(fault) else RowError(fault))
      ensures r.Err? ==> users == old(users)
    {
      if fault.Some? {
        return Err(fault.value);
      }
      if id !in users {
        return Err(NoRows);
      }
      if EmailTaken(email, Some(id)) {
        return Err(DuplicateKey);
      }
      r := Ok(users[id].(email := email, hashedPassword := hashedPassword, updatedAt := now));
      users := users[id := r.value];
    }

    method SetUserIsChirpyRed(id: Uuid.Uuid, isChirpyRed: bool, fault: Option<string>) returns (err: Option<string>)
      requires Valid()
      modifies this`users
      ensures Valid()
      ensures err == fault
      ensures users == if fault.None? && id in old(users)
                       then old(users)[id := old(users)[id].(isChirpyRed := isChirpyRed)]
                       else old(users)
    {
      err := fault;
      if fault.None? && id in users {
        users := users[id := users[id].(isChirpyRed := isChirpyRed)];
      }
    }

    method DeleteAllUsers(fault: Option<string>) returns (err: Option<string>)
      requires Valid()
      modifies this`users
      ensures Valid()
      ensures err == fault
      ensures users == if fault.None? then map[] else old(users)
    {
      err := fault;
      if fault.None? {
        users := map[];
      }
    }

    method CreateRefreshToken(token: string, userId: Uuid.Uuid, expiresAt: Time, now: Time, fault: Option<string>)
      returns (r: Result<RefreshTokenRecord>)
      requires Valid()
      modifies this`refreshTokens
      ensures Valid()
      ensures r.Ok? <==> fault.None? && token !in old(refreshTokens)
      ensures r.Ok? ==> r.value == RefreshTokenRecord(token, now, now, userId, expiresAt, None)
      ensures r.Ok? ==> refreshTokens == old(refreshTokens)[token := r.value]
      ensures r.Err? ==> r.error == InsertError(fault) && refreshTokens == old(refreshTokens)
    {
      if fault.Some? {
        return Err(fault.value);
      }
      if token in refreshTokens {
        return Err(DuplicateKey);
      }
      r := Ok(RefreshTokenRecord(token, now, now, userId, expiresAt, None));
      refreshTokens := refreshTokens[token := r.value];
    }

    /**
     * Looks up a refresh token. `reportedExpired` is the `expired` column the
     * query computes at lookup time; how it is computed is not modelled.
     */
    method GetToken(token: string, reportedExpired: bool, fault: Option<string>) returns (r: Result<TokenLookup>)
      ensures r.Ok? <==> fault.None? && token in refreshTokens
      ensures r.Err? ==> r.error == RowError(fault)
      ensures r.Ok? ==> r.value == TokenLookup(refreshTokens[token], reportedExpired)
    {
      if fault.Some? {
        return Err(fault.value);
      }
      r := if token in refreshTokens then Ok(TokenLookup(refreshTokens[token], reportedExpired)) else Err(NoRows);
    }

    /** Stamps the record's revocation time; a missing record is left alone. */
    method RevokeToken(token: string, now: Time, fault: Option<string>) returns (err: Option<string>)
      requires Valid()
      modifies this`refreshTokens
      ensures Valid()
      ensures err == fault
      ensures refreshTokens == if fault.None? && token in old(refreshTokens)
                               then old(refreshTokens)[token := old(refreshTokens)[token].(revokedAt := Some(now), updatedAt := now)]
                               else old(refreshTokens)
    {
      err := fault;
      if fault.None? && token in refreshTokens {
        refreshTokens := refreshTokens[token := refreshTokens[token].(revokedAt := Some(now), updatedAt := now)];
      }
    }

    method CreateChirp(id: Uuid.Uuid, body: string, userId: Uuid.Uuid, now: Time, fault: Option<string>)
      returns (r: Result<Chirp>)
      requires Valid()
      modifies this`chirps
      ensures Valid()
      ensures r.Ok? <==> fault.None? && id !in old(chirps)
      ensures r.Ok? ==> r.value == Chirp(id, now, now, body, userId) && chirps == old(chirps)[id := r.value]
      ensures r.Err? ==> r.error == InsertError(fault) && chirps == old(chirps)
    {
      if fault.Some? {
        return Err(fault.value);
      }
      if id in chirps {
        return Err(DuplicateKey);
      }
      r := Ok(Chirp(id, now, now, body, userId));
      chirps := chirps[id := r.value];
    }

    method GetChirp(id: Uuid.Uuid, fault: Option<string>) returns (r: Result<Chirp>)
      ensures r.Ok? <==> fault.None? && id in chirps
      ensures r.Err? ==> r.error == RowError(fault)
      ensures r.Ok? ==> r.value == chirps[id]
    {
      if fault.Some? {
        return Err(fault.value);
      }
      r := if id in chirps then Ok(chirps[id]) else Err(NoRows);
    }

    method GetAllChirps(fault: Option<string>) returns (r: Result<set<Chirp>>)
      ensures r.Ok? <==> fault.None?
      ensures r.Ok? ==> r.value == chirps.Values
      ensures r.Err? ==> r.error == fault.value
    {
      if fault.Some? {
        return Err(fault.value);
      }
      r := Ok(chirps.Values);
    }

    method DeleteChirp(id: Uuid.Uuid, fault: Option<string>) returns (err: Option<string>)
      requires Valid()
      modifies this`chirps
      ensures Valid()
      ensures err == fault
      ensures chirps == if fault.None? then old(chirps) - {id} else old(chirps)
    {
      err := fault;
      if fault.None? {
        chirps := chirps - {id};
      }
    }
  }
}

=== FILE: decimal.dfy ===
/** Decimal text for integers, as Go's `%d` verb and JSON numbers print them. */
module Decimal {
  import opened Common

  predicate IsDigit(c: char) {
    '0' <= c <= '9'
  }

  predicate AllDigits(s: string) {
    forall i :: 0 <= i < |s| ==> IsDigit(s[i])
  }

  function DigitChar(d: nat): (c: char)
    requires d < 10
    ensures IsDigit(c) && (c as int) - ('0' as int) == d
  {
    (('0' as int) + d) as char
  }

  /** The shortest decimal spelling of `n`, without sign or leading zeros. */
  function NatToString(n: nat): (s: string)
    ensures |s| > 0 && AllDigits(s)
    ensures n >= 10 <==> |s| > 1
  {
    if n < 10 then [DigitChar(n)] else NatToString(n / 10) + [DigitChar(n % 10)]
  }

  /** The value of a run of decimal digits, most significant first. */
  function DigitsValue(s: string): nat
    requires AllDigits(s)
  {
    if s == [] then 0 else DigitsValue(s[..|s| - 1]) * 10 + ((s[|s| - 1] as int) - ('0' as int))
  }

  function StringToNat(s: string): (r: Option<nat>)
    ensures r.Some? <==> |s| > 0 && AllDigits(s)
  {
    if |s| > 0 && AllDigits(s) then Some(DigitsValue(s)) else None
  }

  /** `-` followed by the digits of the magnitude for a negative value. */
  function IntToString(i: int): (s: string)
    ensures |s| > 0
    ensures s[0] == '-' <==> i < 0
  {
    if i < 0 then "-" + NatToString(-i) else NatToString(i)
  }

  function StringToInt(s: string): Option<int> {
    if |s| > 0 && s[0] == '-' then
      match StringToNat(s[1..])
      case Some(n) => Some(0 - (n as int))
      case None => None
    else
      match StringToNat(s)
      case Some(n) => Some(n as int)
      case None => None
  }

  lemma {:induction false} DigitsValueOfNatToString(n: nat)
    ensures DigitsValue(NatToString(n)) == n
  {
    if n >= 10 {
      var s := NatToString(n);
      assert s[..|s| - 1] == NatToString(n / 10);
      DigitsValueOfNatToString(n / 10);
    }
  }

  /** Reading back the printed digits of a natural number gives that number. */
  lemma NatRoundTrip(n: nat)
    ensures StringToNat(NatToString(n)) == Some(n)
  {
    DigitsValueOfNatToString(n);
  }

  /** Reading back the printed form of any integer gives that integer. */
  lemma IntRoundTrip(i: int)
    ensures StringToInt(IntToString(i)) == Some(i)
  {
    if i < 0 {
      assert IntToString(i)[1..] == NatToString(-i);
      NatRoundTrip(-i);
    } else {
      NatRoundTrip(i);
    }
  }
}

=== FILE: hex.dfy ===
/** Base16 text for byte strings with the lowercase alphabet (section 8 of RFC 4648). */
module Hex {
  import opened Common

  const Alphabet := "0123456789abcdef"

  /** The lowercase digit for a nibble, as Go's `hex` table gives it. */
  function Digit(n: int): char
    requires 0 <= n < 16
  {
    Alphabet[n]
  }

  /** The value of one hex digit; both letter cases are accepted. */
  function DigitValue(c: char): (r: Option<int>)
    ensures r.Some? ==> 0 <= r.value < 16
  {
    if '0' <= c <= '9' then Some(c as int - '0' as int)
    else if 'a' <= c <= 'f' then Some(c as int - 'a' as int + 10)
    else if 'A' <= c <= 'F' then Some(c as int - 'A' as int + 10)
    else None
  }

  /** Two digits per byte, high nibble first. */
  function Encode(s: seq<byte>): (t: string)
    ensures |t| == 2 * |s|
  {
    if s == [] then "" else [Digit(s[0] as int / 16), Digit(s[0] as int % 16)] + Encode(s[1..])
  }

  /** The digits read are exactly the sixteen digits in either letter case. */
  lemma DigitValueDefined(c: char)
    ensures DigitValue(c).Some? <==> c in "0123456789abcdefABCDEF"
  {
  }

  /** Every character of `t` is a hex digit of either case. */
  predicate AllDigits(t: string)
  {
    forall i :: 0 <= i < |t| ==> DigitValue(t[i]).Some?
  }

  /** Digit text is two digits followed by digit text. */
  lemma AllDigitsSplit(t: string)
    requires |t| >= 2
    ensures AllDigits(t) <==> DigitValue(t[0]).Some? && DigitValue(t[1]).Some? && AllDigits(t[2..])
  {
    if DigitValue(t[0]).Some? && DigitValue(t[1]).Some? && AllDigits(t[2..]) {
      forall i | 2 <= i < |t|
        ensures DigitValue(t[i]).Some?
      {
        assert t[i] == t[2..][i - 2];
      }
    }
  }

  /** Digit text is closed under concatenation and splitting. */
  lemma AllDigitsConcat(a: string, b: string)
    ensures AllDigits(a + b) <==> AllDigits(a) && AllDigits(b)
  {
    if AllDigits(a + b) {
      forall i | 0 <= i < |a| ensures DigitValue(a[i]).Some? { assert a[i] == (a + b)[i]; }
      forall i | 0 <= i < |b| ensures DigitValue(b[i]).Some? { assert b[i] == (a + b)[|a| + i]; }
    }
  }

  /** A slice is digit text exactly when the characters it covers are digits. */
  lemma AllDigitsSlice(s: string, x: nat, y: nat)
    requires x <= y <= |s|
    ensures AllDigits(s[x..y]) <==> forall i :: x <= i < y ==> DigitValue(s[i]).Some?
  {
    if AllDigits(s[x..y]) {
      forall i | x <= i < y ensures DigitValue(s[i]).Some? { assert s[i] == s[x..y][i - x]; }
    }
  }

  /** Pairs of digits, high nibble first; defined exactly on even-length digit text. */
  function Decode(t: string): (r: Option<seq<byte>>)
    ensures r.Some? ==> |t| == 2 * |r.value|
    ensures r.Some? <==> |t| % 2 == 0 && AllDigits(t)
    decreases |t|
  {
    if t == "" then Some([])
    else if |t| == 1 then None
    else
      var hi, lo, rest := DigitValue(t[0]), DigitValue(t[1]), Decode(t[2..]);
      AllDigitsSplit(t);
      if hi.None? || lo.None? || rest.None? then None
      else Some([(hi.value * 16 + lo.value) as byte] + rest.value)
  }

  /** Characters 2i and 2i+1 of the encoding are the high and low nibble of byte i. */
  lemma {:induction false} EncodeAt(s: seq<byte>, i: nat)
    requires i < |s|
    ensures Encode(s)[2 * i] == Digit(s[i] as int / 16)
    ensures Encode(s)[2 * i + 1] == Digit(s[i] as int % 16)
  {
    if i > 0 {
      EncodeAt(s[1..], i - 1);
      assert s[1..][i - 1] == s[i];
    }
  }

  /** Every character of an encoding is a lowercase hex digit. */
  lemma EncodeAlphabet(s: seq<byte>)
    ensures forall k :: 0 <= k < |Encode(s)| ==> Encode(s)[k] in Alphabet
  {
    forall k | 0 <= k < |Encode(s)|
      ensures Encode(s)[k] in Alphabet
    {
      EncodeAt(s, k / 2);
      assert k == 2 * (k / 2) || k == 2 * (k / 2) + 1;
    }
  }

  lemma DigitValueOfDigit(n: int)
    requires 0 <= n < 16
    ensures DigitValue(Digit(n)) == Some(n)
  {
    assert Alphabet[n] == ['0', '1', '2', '3', '4', '5', '6', '7', '8', '9', 'a', 'b', 'c', 'd', 'e', 'f'][n];
  }

  /** Decoding an encoding gives the bytes back. */
  lemma {:induction false} DecodeEncode(s: seq<byte>)
    ensures Decode(Encode(s)) == Some(s)
  {
    if s != [] {
      var t := Encode(s);
      var x := s[0];
      assert t == [Digit(x as int / 16), Digit(x as int % 16)] + Encode(s[1..]);
      assert t[2..] == Encode(s[1..]);
      DigitValueOfDigit(x as int / 16);
      DigitValueOfDigit(x as int % 16);
      DecodeEncode(s[1..]);
      DecodePair(t, x, s[1..]);
      assert [x] + s[1..] == s;
    }
  }

  /** Two digits naming the nibbles of `x`, followed by the text of `rest`, decode to `x` then `rest`. */
  lemma DecodePair(t: string, x: byte, rest: seq<byte>)
    requires |t| >= 2 && DigitValue(t[0]) == Some(x as int / 16) && DigitValue(t[1]) == Some(x as int % 16)
    requires Decode(t[2..]) == Some(rest)
    ensures Decode(t) == Some([x] + rest)
  {
    assert (x as int / 16) * 16 + x as int % 16 == x as int;
  }

  /** Distinct byte strings have distinct encodings. */
  lemma EncodeInjective(a: seq<byte>, b: seq<byte>)
    requires Encode(a) == Encode(b)
    ensures a == b
  {
    DecodeEncode(a);
    DecodeEncode(b);
  }

  /** Encode distributes over concatenation. */
  lemma {:induction false} EncodeAppend(a: seq<byte>, b: seq<byte>)
    ensures Encode(a + b) == Encode(a) + Encode(b)
  {
    if a != [] {
      assert (a + b)[1..] == a[1..] + b;
      EncodeAppend(a[1..], b);
    } else {
      assert a + b == b;
    }
  }
}

=== FILE: http.dfy ===
/**
 * What a handler writes to Go's response writer: the first status code
 * written wins, a body write without a status implies 200, and successive
 * body writes are concatenated.
 */
module Http {
  import opened Common
  import Database
  import Uuid

  /** The user fields a response may carry; there is deliberately no password hash. */
  datatype UserPublicInfo = UserPublicInfo(id: Uuid.Uuid, createdAt: Database.Time, updatedAt: Database.Time,
                                           email: string, isChirpyRed: bool)

  /** One JSON or HTML document written to the body. */
  datatype Payload =
    | ErrorJson(msg: string)
    | UserJson(user: UserPublicInfo)
    | LoginJson(user: UserPublicInfo, token: string, refreshToken: string)
    | TokenJson(token: string)
    | ChirpJson(chirp: Database.Chirp)
    | ChirpsJson(chirps: set<Database.Chirp>)
    | Html(page: string)

  datatype Response = Response(header: Option<int>, body: seq<Payload>) {
    /** The status the client sees. */
    function Status(): int {
      if header.Some? then header.value else 200
    }

    /** Records `code` unless a status was already sent. */
    function WriteHeader(code: int): (r: Response)
      ensures r.body == body
      ensures r.Status() == if header.Some? then Status() else code
    {
      if header.Some? then this else this.(header := Some(code))
    }

    /** Appends to the body, sending 200 first if no status was sent. */
    function Write(p: Payload): (r: Response)
      ensures r.body == body + [p]
      ensures r.Status() == Status() && r.header.Some?
    {
      Response(if header.Some? then header else Some(200), body + [p])
    }
  }

  /** A writer nothing has been written to. */
  const Fresh := Response(None, [])

  /** The projection of a user row that responses carry. */
  function PublicInfo(u: Database.User): (info: UserPublicInfo)
    ensures info.id == u.id && info.email == u.email && info.isChirpyRed == u.isChirpyRed
    ensures info.createdAt == u.createdAt && info.updatedAt == u.updatedAt
  {
    UserPublicInfo(u.id, u.createdAt, u.updatedAt, u.email, u.isChirpyRed)
  }

  /** The projection does not depend on the password hash. */
  lemma PublicInfoHidesHash(u: Database.User, otherHash: string)
    ensures PublicInfo(u) == PublicInfo(u.(hashedPassword := otherHash))
  {
  }

  /** Writes `code` and `{"error": "Error: <msg>"}`. */
  function ReturnError(w: Response, msg: string, code: int): (r: Response)
    ensures r.body == w.body + [ErrorJson("Error: " + msg)]
    ensures r.Status() == if w.header.Some? then w.Status() else code
  {
    w.WriteHeader(code).Write(ErrorJson("Error: " + msg))
  }

  /** The response a handler gives when it fails at once with `msg` and `code`. */
  function ErrorResponse(msg: string, code: int): Response {
    ReturnError(Fresh, msg, code)
  }
}

=== FILE: jwt.dfy ===
/**
 * Signed session tokens carrying the registered claims `iss`, `sub`, `iat`
 * and `exp` (sections 4.1.1, 4.1.2, 4.1.6 and 4.1.4 of RFC 7519), signed with
 * an HMAC algorithm (section 3.2 of RFC 7518), and the bearer-credential
 * reading of the Authorization header (section 2.1 of RFC 6750).
 *
 * The signature is an idealised tag `Mac(key, message)` from which key and
 * message can be read back, so it verifies only under the key that made it;
 * the token text is the Wire encoding of its parts. Times are whole seconds.
 */
module Jwt {
  import opened Common
  import opened Decimal
  import Wire
  import Uuid

  const Issuer := "chirpy"
  const HS256 := "HS256"
  const BearerPrefix := "Bearer "
  const MissingAuthorization := "Header did not contain authorization"

  datatype Claims = Claims(issuer: string, subject: string, issuedAt: int, expiresAt: int)

  datatype Token = Token(alg: string, claims: Claims, signature: string)

  /** Why a token string was refused. */
  datatype ValidationError =
    | Malformed
    | UnexpectedSigningMethod(alg: string)
    | SignatureInvalid
    | Expired
    | InvalidSubject

  /** The text of each refusal. */
  function Message(e: ValidationError): string {
    match e
    case Malformed => "token is malformed"
    case UnexpectedSigningMethod(alg) => "unexpected signing method: " + alg
    case SignatureInvalid => "token signature is invalid"
    case Expired => "token is expired"
    case InvalidSubject => Uuid.FormatError
  }

  /** Go's `(uuid.UUID, error)` pair returned by validation. */
  datatype Validated = Validated(userID: Uuid.Uuid, err: Option<ValidationError>)

  /** The HMAC family of signing methods. */
  predicate IsHmac(alg: string) {
    alg == "HS256" || alg == "HS384" || alg == "HS512"
  }

  /** The text the signature covers: header and claims. */
  function SigningInput(alg: string, c: Claims): string {
    Wire.Encode([alg, c.issuer, c.subject, IntToString(c.issuedAt), IntToString(c.expiresAt)])
  }

  /** Idealised keyed tag over a message. */
  function Mac(key: string, message: string): string {
    Wire.Encode(["HMAC", key, message])
  }

  function Serialize(t: Token): string {
    Wire.Encode([t.alg, t.claims.issuer, t.claims.subject,
                 IntToString(t.claims.issuedAt), IntToString(t.claims.expiresAt), t.signature])
  }

  /** Splits a token string into its parts; None when it is not a well-formed token. */
  function Parse(s: string): Option<Token> {
    match Wire.Decode(s, 6)
    case None => None
    case Some(f) =>
      var iat, exp := StringToInt(f[3]), StringToInt(f[4]);
      if iat.None? || exp.None? then None
      else Some(Token(f[0], Claims(f[1], f[2], iat.value, exp.value), f[5]))
  }

  /** The token string for claims signed with `secret` under `alg`. */
  function Signed(alg: string, c: Claims, secret: string): string {
    Serialize(Token(alg, c, Mac(secret, SigningInput(alg, c))))
  }

  /** Reading back a serialized token gives the token. */
  lemma ParseSerialize(t: Token)
    ensures Parse(Serialize(t)) == Some(t)
  {
    var c := t.claims;
    var f := [t.alg, c.issuer, c.subject, IntToString(c.issuedAt), IntToString(c.expiresAt), t.signature];
    Wire.DecodeEncode(f);
    IntRoundTrip(c.issuedAt);
    IntRoundTrip(c.expiresAt);
  }

  /** A tag made with one key is not the tag of the same message under another key. */
  lemma MacKeyInjective(k1: string, k2: string, message: string)
    requires Mac(k1, message) == Mac(k2, message)
    ensures k1 == k2
  {
    Wire.EncodeInjective(["HMAC", k1, message], ["HMAC", k2, message]);
    assert ["HMAC", k1, message][1] == ["HMAC", k2, message][1];
  }

  /**
   * An HS256 token for `userID`, issued by "chirpy" at `now` and expiring
   * `expiresIn` seconds later (negative lifetimes give tokens already expired);
   * it reads back as exactly those claims, signed with the secret.
   */
  function MakeJWT(userID: Uuid.Uuid, tokenSecret: string, expiresIn: int, now: int): (s: string)
    ensures Parse(s) ==
      var c := Claims(Issuer, Uuid.ToString(userID), now, now + expiresIn);
      Some(Token(HS256, c, Mac(tokenSecret, SigningInput(HS256, c))))
  {
    var c := Claims(Issuer, Uuid.ToString(userID), now, now + expiresIn);
    ParseSerialize(Token(HS256, c, Mac(tokenSecret, SigningInput(HS256, c))));
    Signed(HS256, c, tokenSecret)
  }

  /**
   * The library's decision on a token string: well-formed, an HMAC method,
   * a signature made with `tokenSecret`, not yet expired (`now` before
   * `exp`), and a subject that parses as an identifier. The issuer is not
   * examined. Every failure carries the zero identifier.
   */
  function ValidateJWT(tokenString: string, tokenSecret: string, now: int): (r: Validated)
    ensures r.err.Some? ==> r.userID == Uuid.Nil
    ensures r.err.None? ==> Parse(tokenString).Some? && now < Parse(tokenString).value.claims.expiresAt
    ensures r.err.None? ==> Uuid.Parse(Parse(tokenString).value.claims.subject) == Some(r.userID)
    ensures r.err.None? ==>
              var t := Parse(tokenString).value;
              IsHmac(t.alg) && t.signature == Mac(tokenSecret, SigningInput(t.alg, t.claims))
    ensures Parse(tokenString).None? ==> r.err == Some(Malformed)
    ensures Parse(tokenString).Some? && !IsHmac(Parse(tokenString).value.alg) ==>
              r.err == Some(UnexpectedSigningMethod(Parse(tokenString).value.alg))
    ensures Parse(tokenString).Some? ==>
              var t := Parse(tokenString).value;
              IsHmac(t.alg) && t.signature != Mac(tokenSecret, SigningInput(t.alg, t.claims)) ==>
                r.err == Some(SignatureInvalid)
    ensures Parse(tokenString).Some? ==>
              var t := Parse(tokenString).value;
              IsHmac(t.alg) && t.signature == Mac(tokenSecret, SigningInput(t.alg, t.claims)) && now >= t.claims.expiresAt ==>
                r.err == Some(Expired)
    ensures Parse(tokenString).Some? ==>
              var t := Parse(tokenString).value;
              IsHmac(t.alg) && t.signature == Mac(tokenSecret, SigningInput(t.alg, t.claims)) && now < t.claims.expiresAt ==>
                r == (match Uuid.Parse(t.claims.subject)
                      case Some(id) => Validated(id, None)
                      case None => Validated(Uuid.Nil, Some(InvalidSubject)))
  {
    var parsed := Parse(tokenString);
    if parsed.None? then Validated(Uuid.Nil, Some(Malformed))
    else
      var t := parsed.value;
      if !IsHmac(t.alg) then Validated(Uuid.Nil, Some(UnexpectedSigningMethod(t.alg)))
      else if t.signature != Mac(tokenSecret, SigningInput(t.alg, t.claims)) then Validated(Uuid.Nil, Some(SignatureInvalid))
      else if !(now < t.claims.expiresAt) then Validated(Uuid.Nil, Some(Expired))
      else
        var id := Uuid.Parse(t.claims.subject);
        if id.None? then Validated(Uuid.Nil, Some(InvalidSubject))
        else Validated(id.value, None)
  }

  /** A token validated with its own secret before it expires gives back its user. */
  lemma MakeValidateRoundTrip(userID: Uuid.Uuid, secret: string, expiresIn: int, issuedAt: int, now: int)
    requires now < issuedAt + expiresIn
    ensures ValidateJWT(MakeJWT(userID, secret, expiresIn, issuedAt), secret, now) == Validated(userID, None)
  {
    Uuid.ParseToString(userID);
  }

  /**
   * Any HMAC method is accepted, not only the HS256 that `MakeJWT` uses:
   * a token signed with the secret under HS384 or HS512 validates to its
   * subject before it expires, whoever issued it.
   */
  lemma AnyHmacAccepted(alg: string, userID: Uuid.Uuid, issuer: string, secret: string, issuedAt: int, expiresAt: int, now: int)
    requires IsHmac(alg) && now < expiresAt
    ensures ValidateJWT(Signed(alg, Claims(issuer, Uuid.ToString(userID), issuedAt, expiresAt), secret), secret, now)
              == Validated(userID, None)
  {
    var c := Claims(issuer, Uuid.ToString(userID), issuedAt, expiresAt);
    ParseSerialize(Token(alg, c, Mac(secret, SigningInput(alg, c))));
    Uuid.ParseToString(userID);
  }

  /** A token validated at or after its expiry is refused as expired; so is any token made with a lifetime that is not positive. */
  lemma ExpiredTokenRejected(userID: Uuid.Uuid, secret: string, expiresIn: int, issuedAt: int, now: int)
    requires now >= issuedAt + expiresIn
    ensures ValidateJWT(MakeJWT(userID, secret, expiresIn, issuedAt), secret, now) == Validated(Uuid.Nil, Some(Expired))
  {
  }

  /** A token validated with a secret other than the one that signed it is refused. */
  lemma WrongSecretRejected(userID: Uuid.Uuid, secret: string, other: string, expiresIn: int, issuedAt: int, now: int)
    requires other != secret
    ensures ValidateJWT(MakeJWT(userID, secret, expiresIn, issuedAt), other, now) == Validated(Uuid.Nil, Some(SignatureInvalid))
  {
    var t := Parse(MakeJWT(userID, secret, expiresIn, issuedAt)).value;
    if t.signature == Mac(other, SigningInput(t.alg, t.claims)) {
      MacKeyInjective(secret, other, SigningInput(t.alg, t.claims));
    }
  }

  /** Validation ignores the issuer: two signed tokens that differ only in `iss` are decided alike. */
  lemma IssuerNotChecked(alg: string, c: Claims, otherIssuer: string, secret: string, now: int)
    ensures ValidateJWT(Signed(alg, c, secret), secret, now)
         == ValidateJWT(Signed(alg, c.(issuer := otherIssuer), secret), secret, now)
  {
    ParseSerialize(Token(alg, c, Mac(secret, SigningInput(alg, c))));
    var c' := c.(issuer := otherIssuer);
    ParseSerialize(Token(alg, c', Mac(secret, SigningInput(alg, c'))));
  }

  /** A correctly signed token whose subject is not an identifier is refused. */
  lemma BadSubjectRejected(c: Claims, secret: string, now: int)
    requires now < c.expiresAt && Uuid.Parse(c.subject).None?
    ensures ValidateJWT(Signed(HS256, c, secret), secret, now) == Validated(Uuid.Nil, Some(InvalidSubject))
  {
    ParseSerialize(Token(HS256, c, Mac(secret, SigningInput(HS256, c))));
  }

  /** `s` without `prefix` when it starts with it, otherwise `s` itself. */
  function TrimPrefix(s: string, prefix: string): (r: string)
    ensures prefix <= s ==> prefix + r == s
    ensures !(prefix <= s) ==> r == s
  {
    if |prefix| <= |s| && s[..|prefix|] == prefix then s[|prefix|..] else s
  }

  /** The header value with the bearer prefix removed; handlers present it even when it is empty. */
  function Credential(authorization: string): (r: string)
    ensures BearerPrefix <= authorization ==> BearerPrefix + r == authorization
    ensures !(BearerPrefix <= authorization) ==> r == authorization
  {
    TrimPrefix(authorization, BearerPrefix)
  }

  /**
   * The credential in an Authorization header value (empty when the header
   * is absent): an error for an empty value, otherwise the value with one
   * leading, case-sensitive "Bearer " removed if present.
   */
  function GetBearerToken(authorization: string): (r: Result<string>)
    ensures r.Err? <==> authorization == ""
  {
    if authorization == "" then Err(MissingAuthorization)
    else Ok(Credential(authorization))
  }

  /** A header made from "Bearer " and any credential yields that credential, even an empty one. */
  lemma BearerRoundTrip(token: string)
    ensures GetBearerToken(BearerPrefix + token) == Ok(token)
  {
    assert (BearerPrefix + token)[..|BearerPrefix|] == BearerPrefix;
  }

  /** A non-empty header without the exact prefix is passed through unchanged. */
  lemma BearerPassThrough(authorization: string)
    requires authorization != ""
    requires !(|BearerPrefix| <= |authorization| && authorization[..|BearerPrefix|] == BearerPrefix)
    ensures GetBearerToken(authorization) == Ok(authorization)
  {
  }

  /** Only one prefix is stripped, and a lowercase scheme is not recognised. */
  lemma BearerExamples()
    ensures GetBearerToken("Bearer x") == Ok("x")
    ensures GetBearerToken("bearer x") == Ok("bearer x")
    ensures GetBearerToken("Bearer Bearer x") == Ok("Bearer x")
    ensures GetBearerToken("Bearer ") == Ok("")
    ensures GetBearerToken("").Err?
  {
    BearerRoundTrip("x");
    BearerRoundTrip("Bearer x");
    BearerRoundTrip("");
    assert "bearer x"[0] != BearerPrefix[0];
  }
}

=== FILE: password.dfy ===
/**
 * Password hashing, idealised: a hash records the scheme, the salt drawn
 * from the random source and the password in an injective encoding, so that
 * checking compares by recomputing. The model does not capture that a real
 * hash hides the password.
 */
module Password {
  import opened Common
  import Wire

  const Scheme := "bcrypt"

  /** Hashes with the salt the random source produced; fails when the source failed. */
  function HashPassword(password: string, salt: Result<string>): (r: Result<string>)
    ensures r.Err? <==> salt.Err?
  {
    match salt
    case Err(e) => Err(e)
    case Ok(s) => Ok(Wire.Encode([Scheme, s, password]))
  }

  /** Whether `password` hashes to `hash` under the salt recorded in it; an error for a malformed hash. */
  function CheckPasswordHash(password: string, hash: string): (r: Result<bool>)
    ensures r.Ok? <==> Wire.Decode(hash, 3).Some? && Wire.Decode(hash, 3).value[0] == Scheme
  {
    match Wire.Decode(hash, 3)
    case Some(f) =>
      if f[0] == Scheme then Ok(hash == Wire.Encode([Scheme, f[1], password]))
      else Err("malformed password hash")
    case None => Err("malformed password hash")
  }

  /** A password checks against its own hash. */
  lemma CheckOwnHash(password: string, salt: string)
    ensures CheckPasswordHash(password, HashPassword(password, Ok(salt)).value) == Ok(true)
  {
    Wire.DecodeEncode([Scheme, salt, password]);
  }

  /** A different password does not check against the hash, and is not an error. */
  lemma CheckOtherPassword(password: string, other: string, salt: string)
    requires other != password
    ensures CheckPasswordHash(other, HashPassword(password, Ok(salt)).value) == Ok(false)
  {
    var h := HashPassword(password, Ok(salt)).value;
    Wire.DecodeEncode([Scheme, salt, password]);
    if h == Wire.Encode([Scheme, salt, other]) {
      Wire.EncodeInjective([Scheme, salt, password], [Scheme, salt, other]);
    }
  }
}

=== FILE: refresh_token.dfy ===
/**
 * Refresh tokens: 32 bytes from the random source, hex-encoded into 64
 * lowercase characters. The random source is a parameter: the bytes it
 * delivers, possibly fewer than asked for when it fails.
 */
module RefreshToken {
  import opened Common
  import Hex

  const TokenBytes := 32

  /**
   * The buffer after the source has written into it: the delivered bytes,
   * then the zeros the buffer was allocated with where the source fell short.
   */
  function Filled(random: seq<byte>): (buf: seq<byte>)
    ensures |buf| == TokenBytes
    ensures |random| >= TokenBytes ==> buf == random[..TokenBytes]
    ensures |random| < TokenBytes ==> buf[..|random|] == random
    ensures forall i :: |random| <= i < TokenBytes ==> buf[i] == 0
  {
    seq(TokenBytes, i requires 0 <= i < TokenBytes => if i < |random| then random[i] else 0)
  }

  /** The token for what the random source delivered: 64 characters that decode to the filled buffer. */
  function TokenFor(random: seq<byte>): (token: string)
    ensures |token| == 2 * TokenBytes
    ensures Hex.Decode(token) == Some(Filled(random))
  {
    Hex.DecodeEncode(Filled(random));
    Hex.Encode(Filled(random))
  }

  /** Copies the delivered bytes into `buf`, as the random source's read does. */
  method Read(buf: array<byte>, random: seq<byte>)
    requires buf.Length == TokenBytes
    requires forall i :: 0 <= i < buf.Length ==> buf[i] == 0
    modifies buf
    ensures buf[..] == Filled(random)
  {
    var n := if |random| < buf.Length then |random| else buf.Length;
    for i := 0 to n
      invariant forall k :: 0 <= k < i ==> buf[k] == random[k]
      invariant forall k :: i <= k < buf.Length ==> buf[k] == 0
    {
      buf[i] := random[i];
    }
  }

  /** Writes two digits per byte into a fresh character array. */
  method EncodeToString(src: array<byte>) returns (s: string)
    ensures s == Hex.Encode(src[..])
  {
    var dst := new char[2 * src.Length];
    for i := 0 to src.Length
      invariant dst[..2 * i] == Hex.Encode(src[..i])
    {
      ghost var done := dst[..2 * i];
      dst[2 * i] := Hex.Digit(src[i] as int / 16);
      dst[2 * i + 1] := Hex.Digit(src[i] as int % 16);
      assert dst[..2 * i + 2] == done + Hex.Encode([src[i]]);
      assert src[..i + 1] == src[..i] + [src[i]];
      Hex.EncodeAppend(src[..i], [src[i]]);
    }
    assert dst[..] == dst[..2 * src.Length];
    assert src[..] == src[..src.Length];
    s := dst[..];
  }

  /** Allocates a zeroed 32-byte buffer, fills it from the source and encodes it; never fails. */
  method MakeRefreshToken(random: seq<byte>) returns (token: string, err: Option<string>)
    ensures token == TokenFor(random) && err == None
  {
    var randomData := new byte[TokenBytes](_ => 0);
    Read(randomData, random);
    token := EncodeToString(randomData);
    err := None;
  }

  /** A token is 64 lowercase hex digits. */
  lemma TokenShape(random: seq<byte>)
    ensures |TokenFor(random)| == 2 * TokenBytes == 64
    ensures forall k :: 0 <= k < |TokenFor(random)| ==> TokenFor(random)[k] in Hex.Alphabet
  {
    Hex.EncodeAlphabet(Filled(random));
  }

  /** Decoding a token recovers the 32 random bytes it was made from. */
  lemma TokenDecodes(random: seq<byte>)
    requires |random| >= TokenBytes
    ensures Hex.Decode(TokenFor(random)) == Some(random[..TokenBytes])
  {
  }

  /** Distinct random buffers give distinct tokens. */
  lemma TokenInjective(r1: seq<byte>, r2: seq<byte>)
    requires |r1| >= TokenBytes && |r2| >= TokenBytes
    requires r1[..TokenBytes] != r2[..TokenBytes]
    ensures TokenFor(r1) != TokenFor(r2)
  {
    TokenDecodes(r1);
    TokenDecodes(r2);
  }
}

=== FILE: scenarios.dfy ===
/**
 * Whole request sequences as a client sees them, run against a store that
 * starts empty.
 */
module Scenarios {
  import opened Common
  import opened Http
  import Database
  import Config
  import Jwt
  import Password
  import RefreshToken
  import Uuid
  import UserHandlers
  import WebhookHandlers

  /** A fresh service whose only user registered with `email` and `password`. */
  method RegisteredService(id: Uuid.Uuid, email: string, password: string, salt: string,
                           secret: string, now: Database.Time)
    returns (cfg: Config.ApiConfig, u: Database.User)
    ensures fresh(cfg) && fresh(cfg.db) && cfg.db.Valid() && cfg.jwtSecret == secret
    ensures cfg.db.users == map[id := u] && cfg.db.refreshTokens == map[]
    ensures u.id == id && u.email == email
    ensures u.hashedPassword == Password.HashPassword(password, Ok(salt)).value
    ensures cfg.db.UserWithEmail(email) == Some(u)
  {
    var db := new Database.Db(map[], map[], map[]);
    cfg := new Config.ApiConfig(db, "dev", secret, "");
    var registered := UserHandlers.HandlerPostUsers(cfg, Ok(UserHandlers.Credentials(email, password)),
                                                    Ok(salt), id, now, None);
    u := db.users[id];
    assert db.users[id].email == email;
  }

  /**
   * Registering and logging in with the same credentials succeeds, and the
   * refresh token from the login buys a session token for the same user.
   */
  method RegisterLoginRefresh(id: Uuid.Uuid, email: string, password: string, salt: string,
                              random: seq<byte>, secret: string, now: Database.Time)
    returns (login: Response, refresh: Response)
    ensures login.Status() == 200 && refresh.Status() == 200
    ensures |login.body| == 1 && login.body[0].LoginJson? && login.body[0].user.id == id
    ensures login.body[0].refreshToken == RefreshToken.TokenFor(random)
    ensures Jwt.ValidateJWT(login.body[0].token, secret, now) == Jwt.Validated(id, None)
    ensures refresh.body == [TokenJson(Jwt.MakeJWT(id, secret, UserHandlers.SessionLifetime, now))]
    ensures Jwt.ValidateJWT(refresh.body[0].token, secret, now) == Jwt.Validated(id, None)
  {
    var cfg, u := RegisteredService(id, email, password, salt, secret, now);
    UserHandlers.CredentialsDecision(u, password, password, salt);
    login := UserHandlers.HandlerPostLogin(cfg, Ok(UserHandlers.Credentials(email, password)), now, random, None, None);
    assert login.body[0].token == Jwt.MakeJWT(id, secret, UserHandlers.SessionLifetime, now);
    var token := RefreshToken.TokenFor(random);
    Jwt.BearerRoundTrip(token);
    refresh := UserHandlers.HandlerPostRefresh(cfg, Jwt.BearerPrefix + token, now, None, false, None);
    Jwt.MakeValidateRoundTrip(id, secret, UserHandlers.SessionLifetime, now, now);
    assert refresh.body[0].token == Jwt.MakeJWT(id, secret, UserHandlers.SessionLifetime, now);
  }

  /** An unknown e-mail and a wrong password get answers a client cannot tell apart. */
  method UniformLoginRefusal(id: Uuid.Uuid, email: string, password: string, other: string, stranger: string,
                             salt: string, random: seq<byte>, now: Database.Time)
    returns (unknown: Response, wrong: Response)
    requires other != password && stranger != email
    ensures unknown == wrong == ErrorResponse(UserHandlers.BadCredentials, 401)
  {
    var cfg, u := RegisteredService(id, email, password, salt, "secret", now);
    assert cfg.db.UserWithEmail(stranger).None?;
    UserHandlers.CredentialsDecision(u, password, other, salt);
    unknown := UserHandlers.HandlerPostLogin(cfg, Ok(UserHandlers.Credentials(stranger, password)), now, random, None, None);
    wrong := UserHandlers.HandlerPostLogin(cfg, Ok(UserHandlers.Credentials(email, other)), now, random, None, None);
  }

  /**
   * Refreshing without an Authorization header: the handler as written goes
   * on to look up the empty token and writes a second error document.
   */
  method RefreshWithoutHeader() returns (asWritten: Response, corrected: Response)
    ensures asWritten.Status() == 401
    ensures asWritten.body == [ErrorJson("Error: " + Jwt.MissingAuthorization), ErrorJson("Error: " + Database.NoRows)]
    ensures corrected == ErrorResponse(Jwt.MissingAuthorization, 401) && |corrected.body| == 1
  {
    var db := new Database.Db(map[], map[], map[]);
    var cfg := new Config.ApiConfig(db, "dev", "secret", "");
    asWritten := UserHandlers.HandlerPostRefresh(cfg, "", 0, None, false, None);
    corrected := UserHandlers.HandlerPostRefreshCorrected(cfg, "", 0, None, false, None);
  }

  /**
   * A webhook call with the wrong key: the handler as written answers 401
   * yet upgrades the user; the corrected handler leaves the user alone.
   */
  method WrongKeyUpgrade(id: Uuid.Uuid, u: Database.User, key: string, wrongKey: string)
    returns (asWritten: Response, upgradedAsWritten: bool, corrected: Response, upgradedCorrected: bool)
    requires u.id == id && !u.isChirpyRed && wrongKey != key
    ensures asWritten.Status() == 401 && upgradedAsWritten
    ensures corrected == ErrorResponse(WebhookHandlers.InvalidApiKey, 401) && !upgradedCorrected
  {
    var params := WebhookHandlers.WebhookParams(WebhookHandlers.UserUpgraded, Uuid.ToString(id));
    Uuid.ParseToString(id);

    var db := new Database.Db(map[id := u], map[], map[]);
    var cfg := new Config.ApiConfig(db, "dev", "secret", key);
    asWritten := WebhookHandlers.HandlerPostPolkaWebhooks(cfg, Ok(wrongKey), Ok(params), None);
    upgradedAsWritten := db.users[id].isChirpyRed;

    var db2 := new Database.Db(map[id := u], map[], map[]);
    var cfg2 := new Config.ApiConfig(db2, "dev", "secret", key);
    corrected := WebhookHandlers.HandlerPostPolkaWebhooksCorrected(cfg2, Ok(wrongKey), Ok(params), None);
    upgradedCorrected := db2.users[id].isChirpyRed;
  }

  /**
   * A refresh record the store reports expired is revoked on use and
   * refused; a second use is refused again.
   */
  method ExpiredRefreshRevoked(token: string, record: Database.RefreshTokenRecord, now: Database.Time)
    returns (first: Response, second: Response, revokedAt: Option<Database.Time>)
    requires record.token == token
    ensures first == ErrorResponse(UserHandlers.TokenExpired, 401)
    ensures second == ErrorResponse(UserHandlers.TokenExpired, 401)
    ensures revokedAt == Some(now)
  {
    var db := new Database.Db(map[], map[], map[token := record]);
    var cfg := new Config.ApiConfig(db, "dev", "secret", "");
    var header := Jwt.BearerPrefix + token;
    Jwt.BearerRoundTrip(token);
    first := UserHandlers.HandlerPostRefresh(cfg, header, now, None, true, None);
    second := UserHandlers.HandlerPostRefresh(cfg, header, now, None, true, None);
    revokedAt := db.refreshTokens[token].revokedAt;
  }
}

=== FILE: user_handlers.dfy ===
/**
 * Registration, login, session refresh, refresh-token revocation and
 * profile update. Each handler takes the decoded request (or the decoder's
 * error), the Authorization header value ("" when absent), the current time,
 * what the random source delivers, and the faults of the store calls it makes.
 */
module UserHandlers {
  import opened Common
  import opened Http
  import Database
  import Config
  import Jwt
  import Password
  import RefreshToken
  import Uuid

  /** Session tokens last one hour. */
  const SessionLifetime := 60 * 60
  /** Refresh records last sixty days. */
  const RefreshLifetime := 60 * 60 * 24 * 60
  const BadCredentials := "Incorrect email or password"
  const TokenExpired := "token exipired"

  datatype Credentials = Credentials(email: string, password: string)

  /** What the header check leaves in the writer: 401 when the header is absent, nothing otherwise. */
  function AfterHeaderCheck(authorization: string): (r: Response)
    ensures r == Fresh <==> authorization != ""
    ensures authorization == "" ==> r.Status() == 401 && r.body == [ErrorJson("Error: " + Jwt.MissingAuthorization)]
  {
    if authorization == "" then ErrorResponse(Jwt.MissingAuthorization, 401) else Fresh
  }

  /**
   * The pure credential decision of login: the user found for the e-mail,
   * provided the password checks against its hash without error.
   */
  function CheckCredentials(lookup: Result<Database.User>, password: string): (r: Option<Database.User>)
    ensures r.Some? ==> lookup == Ok(r.value)
    ensures r.Some? ==> Password.CheckPasswordHash(password, r.value.hashedPassword) == Ok(true)
    ensures lookup.Ok? && Password.CheckPasswordHash(password, lookup.value.hashedPassword) == Ok(true) ==>
              r == Some(lookup.value)
  {
    if lookup.Err? then None
    else
      var matched := Password.CheckPasswordHash(password, lookup.value.hashedPassword);
      if matched.Err? || !matched.value then None else Some(lookup.value)
  }

  /** A user whose stored hash was made from `password` is accepted with that password and refused with any other. */
  lemma CredentialsDecision(u: Database.User, password: string, other: string, salt: string)
    requires u.hashedPassword == Password.HashPassword(password, Ok(salt)).value
    ensures CheckCredentials(Ok(u), password) == Some(u)
    ensures other != password ==> CheckCredentials(Ok(u), other) == None
  {
    Password.CheckOwnHash(password, salt);
    if other != password {
      Password.CheckOtherPassword(password, other, salt);
    }
  }

  /** POST /api/users: stores a new user with the hash of the password and answers 201 with its public fields. */
  method HandlerPostUsers(cfg: Config.ApiConfig, params: Result<Credentials>, salt: Result<string>,
                          newId: Uuid.Uuid, now: Database.Time, fault: Option<string>)
    returns (resp: Response)
    requires cfg.db.Valid()
    modifies cfg.db`users
    ensures cfg.db.Valid()
    ensures params.Err? ==> resp == ErrorResponse(params.error, 500) && cfg.db.users == old(cfg.db.users)
    ensures params.Ok? && salt.Err? ==> resp == ErrorResponse(salt.error, 500) && cfg.db.users == old(cfg.db.users)
    ensures resp.Status() == 201 <==>
              params.Ok? && salt.Ok? && fault.None? && newId !in old(cfg.db.users)
              && !old(cfg.db.EmailTaken(params.value.email, None))
    ensures resp.Status() == 201 ==>
              var u := Database.User(newId, now, now, params.value.email,
                                     Password.HashPassword(params.value.password, salt).value, false);
              && cfg.db.users == old(cfg.db.users)[newId := u]
              && resp == Fresh.WriteHeader(201).Write(UserJson(PublicInfo(u)))
              && Password.CheckPasswordHash(params.value.password, u.hashedPassword) == Ok(true)
    ensures params.Ok? && salt.Ok? && resp.Status() != 201 ==> resp == ErrorResponse(Database.InsertError(fault), 500)
    ensures resp.Status() != 201 ==> resp.Status() == 500 && cfg.db.users == old(cfg.db.users)
  {
    if params.Err? {
      return ErrorResponse(params.error, 500);
    }
    var hashed := Password.HashPassword(params.value.password, salt);
    if hashed.Err? {
      return ErrorResponse(hashed.error, 500);
    }
    var user := cfg.db.CreateUser(newId, params.value.email, hashed.value, now, fault);
    if user.Err? {
      return ErrorResponse(user.error, 500);
    }
    Password.CheckOwnHash(params.value.password, salt.value);
    resp := Fresh.WriteHeader(201).Write(UserJson(PublicInfo(user.value)));
  }

  /**
   * POST /api/login: an unknown e-mail and a wrong password get the same 401;
   * otherwise a one-hour session token and a sixty-day refresh record.
   */
  method HandlerPostLogin(cfg: Config.ApiConfig, params: Result<Credentials>, now: Database.Time,
                          random: seq<Common.byte>, lookupFault: Option<string>, createFault: Option<string>)
    returns (resp: Response)
    requires cfg.db.Valid()
    modifies cfg.db`refreshTokens
    ensures cfg.db.Valid()
    ensures params.Err? ==> resp == ErrorResponse(params.error, 500) && cfg.db.refreshTokens == old(cfg.db.refreshTokens)
    ensures params.Ok? ==>
              var lookup := if lookupFault.Some? then Err(lookupFault.value)
                            else if old(cfg.db.UserWithEmail(params.value.email)).Some?
                            then Ok(old(cfg.db.UserWithEmail(params.value.email)).value)
                            else Err(Database.NoRows);
              var found := CheckCredentials(lookup, params.value.password);
              var refresh := RefreshToken.TokenFor(random);
              && (found.None? ==> resp == ErrorResponse(BadCredentials, 401)
                                  && cfg.db.refreshTokens == old(cfg.db.refreshTokens))
              && (found.Some? && (createFault.Some? || refresh in old(cfg.db.refreshTokens)) ==>
                    resp == ErrorResponse(Database.InsertError(createFault), 500)
                    && cfg.db.refreshTokens == old(cfg.db.refreshTokens))
              && (found.Some? && createFault.None? && refresh !in old(cfg.db.refreshTokens) ==>
                    var u := found.value;
                    && resp == Fresh.WriteHeader(200).Write(LoginJson(PublicInfo(u),
                                 Jwt.MakeJWT(u.id, cfg.jwtSecret, SessionLifetime, now), refresh))
                    && cfg.db.refreshTokens == old(cfg.db.refreshTokens)[refresh :=
                         Database.RefreshTokenRecord(refresh, now, now, u.id, now + RefreshLifetime, None)])
  {
    if params.Err? {
      return ErrorResponse(params.error, 500);
    }
    var user := cfg.db.GetUserByEmail(params.value.email, lookupFault);
    if user.Err? {
      return ErrorResponse(BadCredentials, 401);
    }
    var matched := Password.CheckPasswordHash(params.value.password, user.value.hashedPassword);
    if matched.Err? || !matched.value {
      return ErrorResponse(BadCredentials, 401);
    }
    var token := Jwt.MakeJWT(user.value.id, cfg.jwtSecret, SessionLifetime, now);
    var refreshToken, err := RefreshToken.MakeRefreshToken(random);
    match err {
      case Some(e) => return ErrorResponse(e, 500);
      case None =>
    }
    var created := cfg.db.CreateRefreshToken(refreshToken, user.value.id, now + RefreshLifetime, now, createFault);
    if created.Err? {
      return ErrorResponse(created.error, 500);
    }
    resp := Fresh.WriteHeader(200).Write(LoginJson(PublicInfo(user.value), token, refreshToken));
  }

  /**
   * POST /api/refresh: a new one-hour session token for the owner of a
   * stored refresh record that the lookup does not report expired; the
   * record is left as it was. `reportedExpired` is the lookup's `expired`
   * column, and the handler consults nothing else of the record's state: a
   * record reported expired is revoked before the refusal. A missing header
   * writes 401 but does not stop the handler: the store is still consulted
   * with "".
   */
  method HandlerPostRefresh(cfg: Config.ApiConfig, authorization: string, now: Database.Time,
                            getFault: Option<string>, reportedExpired: bool, revokeFault: Option<string>)
    returns (resp: Response)
    requires cfg.db.Valid()
    modifies cfg.db`refreshTokens
    ensures cfg.db.Valid()
    ensures authorization == "" ==> resp.Status() == 401
    ensures var token, first := Jwt.Credential(authorization), AfterHeaderCheck(authorization);
            && (getFault.Some? || token !in old(cfg.db.refreshTokens) ==>
                  resp == ReturnError(first, Database.RowError(getFault), 401)
                  && cfg.db.refreshTokens == old(cfg.db.refreshTokens))
            && (getFault.None? && token in old(cfg.db.refreshTokens) ==>
                  var record := old(cfg.db.refreshTokens)[token];
                  && (reportedExpired && revokeFault.Some? ==>
                        resp == ReturnError(first, revokeFault.value, 500)
                        && cfg.db.refreshTokens == old(cfg.db.refreshTokens))
                  && (reportedExpired && revokeFault.None? ==>
                        resp == ReturnError(first, TokenExpired, 401)
                        && cfg.db.refreshTokens == old(cfg.db.refreshTokens)[token :=
                             record.(revokedAt := Some(now), updatedAt := now)])
                  && (!reportedExpired ==>
                        resp == first.WriteHeader(200).Write(TokenJson(
                                  Jwt.MakeJWT(record.userId, cfg.jwtSecret, SessionLifetime, now)))
                        && cfg.db.refreshTokens == old(cfg.db.refreshTokens)))
  {
    resp := Fresh;
    var token := "";
    var bearer := Jwt.GetBearerToken(authorization);
    if bearer.Err? {
      resp := ReturnError(resp, bearer.error, 401);
    } else {
      token := bearer.value;
    }

    var tokenInfo := cfg.db.GetToken(token, reportedExpired, getFault);
    if tokenInfo.Err? {
      resp := ReturnError(resp, tokenInfo.error, 401);
      return;
    }

    if tokenInfo.value.expired {
      var err := cfg.db.RevokeToken(token, now, revokeFault);
      if err.Some? {
        resp := ReturnError(resp, err.value, 500);
        return;
      }
      resp := ReturnError(resp, TokenExpired, 401);
      return;
    }

    var jwtToken := Jwt.MakeJWT(tokenInfo.value.record.userId, cfg.jwtSecret, SessionLifetime, now);
    resp := resp.WriteHeader(200).Write(TokenJson(jwtToken));
  }

  /**
   * The handler as evidently intended: a missing header ends the request
   * with 401 before the store is consulted.
   */
  method HandlerPostRefreshCorrected(cfg: Config.ApiConfig, authorization: string, now: Database.Time,
                                     getFault: Option<string>, reportedExpired: bool, revokeFault: Option<string>)
    returns (resp: Response)
    requires cfg.db.Valid()
    modifies cfg.db`refreshTokens
    ensures cfg.db.Valid()
    ensures authorization == "" ==>
              resp == ErrorResponse(Jwt.MissingAuthorization, 401)
              && cfg.db.refreshTokens == old(cfg.db.refreshTokens)
    ensures authorization != "" ==>
              var token := Jwt.Credential(authorization);
              && (getFault.Some? || token !in old(cfg.db.refreshTokens) ==>
                    resp == ErrorResponse(Database.RowError(getFault), 401)
                    && cfg.db.refreshTokens == old(cfg.db.refreshTokens))
              && (getFault.None? && token in old(cfg.db.refreshTokens) ==>
                    var record := old(cfg.db.refreshTokens)[token];
                    && (reportedExpired && revokeFault.Some? ==>
                          resp == ErrorResponse(revokeFault.value, 500)
                          && cfg.db.refreshTokens == old(cfg.db.refreshTokens))
                    && (reportedExpired && revokeFault.None? ==>
                          resp == ErrorResponse(TokenExpired, 401)
                          && cfg.db.refreshTokens == old(cfg.db.refreshTokens)[token :=
                               record.(revokedAt := Some(now), updatedAt := now)])
                    && (!reportedExpired ==>
                          resp == Fresh.WriteHeader(200).Write(TokenJson(
                                    Jwt.MakeJWT(record.userId, cfg.jwtSecret, SessionLifetime, now)))
                          && cfg.db.refreshTokens == old(cfg.db.refreshTokens)))
  {
    var bearer := Jwt.GetBearerToken(authorization);
    if bearer.Err? {
      return ErrorResponse(bearer.error, 401);
    }
    resp := HandlerPostRefresh(cfg, authorization, now, getFault, reportedExpired, revokeFault);
  }

  /** POST /api/revoke: marks the presented refresh token revoked; the handler does not check that it exists. */
  method HandlerPostRevoke(cfg: Config.ApiConfig, authorization: string, now: Database.Time, fault: Option<string>)
    returns (resp: Response)
    requires cfg.db.Valid()
    modifies cfg.db`refreshTokens
    ensures cfg.db.Valid()
    ensures authorization == "" ==>
              resp == ErrorResponse(Jwt.MissingAuthorization, 401)
              && cfg.db.refreshTokens == old(cfg.db.refreshTokens)
    ensures authorization != "" && fault.Some? ==>
              resp == ErrorResponse(fault.value, 500) && cfg.db.refreshTokens == old(cfg.db.refreshTokens)
    ensures authorization != "" && fault.None? ==>
              var token := Jwt.Credential(authorization);
              && resp == Fresh.WriteHeader(204)
              && cfg.db.refreshTokens ==
                   if token in old(cfg.db.refreshTokens)
                   then old(cfg.db.refreshTokens)[token := old(cfg.db.refreshTokens)[token].(revokedAt := Some(now), updatedAt := now)]
                   else old(cfg.db.refreshTokens)
  {
    var token := Jwt.GetBearerToken(authorization);
    if token.Err? {
      return ErrorResponse(token.error, 401);
    }
    var err := cfg.db.RevokeToken(token.value, now, fault);
    match err {
      case Some(e) => return ErrorResponse(e, 500);
      case None =>
    }
    resp := Fresh.WriteHeader(204);
  }

  /**
   * PUT /api/users: replaces e-mail and password hash of the user named by
   * the session token's subject, never of a user named in the body.
   */
  method HandlerPutUsers(cfg: Config.ApiConfig, authorization: string, now: Database.Time,
                         params: Result<Credentials>, salt: Result<string>, fault: Option<string>)
    returns (resp: Response)
    requires cfg.db.Valid()
    modifies cfg.db`users
    ensures cfg.db.Valid()
    ensures authorization == "" ==>
              resp == ErrorResponse(Jwt.MissingAuthorization, 401) && cfg.db.users == old(cfg.db.users)
    ensures var v := Jwt.ValidateJWT(Jwt.Credential(authorization), cfg.jwtSecret, now);
            && (authorization != "" && v.err.Some? ==>
                  resp == ErrorResponse(Jwt.Message(v.err.value), 401) && cfg.db.users == old(cfg.db.users))
            && (authorization != "" && v.err.None? && params.Err? ==> resp == ErrorResponse(params.error, 500))
            && (authorization != "" && v.err.None? && params.Ok? && salt.Err? ==> resp == ErrorResponse(salt.error, 500))
            && (authorization != "" && v.err.None? && params.Ok? && salt.Ok? && resp.Status() != 200 ==>
                  resp == ErrorResponse(if v.userID in old(cfg.db.users) then Database.InsertError(fault)
                                        else Database.RowError(fault), 500))
            && (resp.Status() == 200 ==>
                  && authorization != "" && v.err.None? && params.Ok? && salt.Ok?
                  && v.userID in old(cfg.db.users)
                  && var u := old(cfg.db.users)[v.userID].(email := params.value.email,
                                 hashedPassword := Password.HashPassword(params.value.password, salt).value,
                                 updatedAt := now);
                  && cfg.db.users == old(cfg.db.users)[v.userID := u]
                  && resp == Fresh.WriteHeader(200).Write(UserJson(PublicInfo(u)))
                  && Password.CheckPasswordHash(params.value.password, u.hashedPassword) == Ok(true))
            && (authorization != "" && v.err.None? && params.Ok? && salt.Ok? && fault.None?
                && v.userID in old(cfg.db.users) && !old(cfg.db.EmailTaken(params.value.email, Some(v.userID)))
                ==> resp.Status() == 200)
    ensures resp.Status() != 200 ==> cfg.db.users == old(cfg.db.users)
  {
    var token := Jwt.GetBearerToken(authorization);
    if token.Err? {
      return ErrorResponse(token.error, 401);
    }
    var validated := Jwt.ValidateJWT(token.value, cfg.jwtSecret, now);
    if validated.err.Some? {
      return ErrorResponse(Jwt.Message(validated.err.value), 401);
    }
    var userID := validated.userID;
    if params.Err? {
      return ErrorResponse(params.error, 500);
    }
    var hashed := Password.HashPassword(params.value.password, salt);
    if hashed.Err? {
      return ErrorResponse(hashed.error, 500);
    }
    var user := cfg.db.UpdateUser(userID, params.value.email, hashed.value, now, fault);
    if user.Err? {
      return ErrorResponse(user.error, 500);
    }
    Password.CheckOwnHash(params.value.password, salt.value);
    resp := Fresh.WriteHeader(200).Write(UserJson(PublicInfo(user.value)));
  }
}

=== FILE: uuid.dfy ===
/**
 * 128-bit identifiers and their canonical text form
 * `xxxxxxxx-xxxx-xxxx-xxxx-xxxxxxxxxxxx` (lowercase when printed, either
 * case when parsed).
 */
module Uuid {
  import opened Common
  import Hex

  type Uuid = s: seq<byte> | |s| == 16 witness [0, 0, 0, 0, 0, 0, 0, 0, 0, 0, 0, 0, 0, 0, 0, 0]

  /** The zero identifier, returned alongside every error. */
  const Nil: Uuid := [0, 0, 0, 0, 0, 0, 0, 0, 0, 0, 0, 0, 0, 0, 0, 0]

  /** The 8-4-4-4-12 lowercase grouping of the 16 bytes. */
  function ToString(u: Uuid): (s: string)
    ensures |s| == 36
  {
    Hex.Encode(u[..4]) + "-" + Hex.Encode(u[4..6]) + "-" + Hex.Encode(u[6..8]) + "-"
      + Hex.Encode(u[8..10]) + "-" + Hex.Encode(u[10..])
  }

  /** The refusal text of `Parse`. */
  const FormatError := "invalid UUID format"

  /**
   * The canonical text form: 36 characters, dashes at 8, 13, 18 and 23,
   * and a hex digit of either case everywhere else.
   */
  predicate Dashed(s: string)
  {
    |s| == 36 && s[8] == s[13] == s[18] == s[23] == '-' &&
    forall i :: 0 <= i < 36 && i != 8 && i != 13 && i != 18 && i != 23 ==> Hex.DigitValue(s[i]).Some?
  }

  /** The 32 digits of a dashed text, dashes removed. */
  function Digits(s: string): (d: string)
    requires |s| == 36
    ensures |d| == 32
  {
    s[..8] + s[9..13] + s[14..18] + s[19..23] + s[24..]
  }

  /** Accepts exactly the 36-character dashed form with hex digits of either case. */
  function Parse(s: string): (r: Option<Uuid>)
    ensures r.Some? <==> Dashed(s)
  {
    if |s| != 36 || s[8] != '-' || s[13] != '-' || s[18] != '-' || s[23] != '-' then None
    else
      DigitsOfDashed(s);
      match Hex.Decode(Digits(s))
      case Some(b) => Some(b)
      case None => None
  }

  /** The dash-free digits are digit text exactly when the dashed text is well formed. */
  lemma DigitsOfDashed(s: string)
    requires |s| == 36 && s[8] == s[13] == s[18] == s[23] == '-'
    ensures Hex.AllDigits(Digits(s)) <==> Dashed(s)
  {
    var a, b, c, d, e := s[..8], s[9..13], s[14..18], s[19..23], s[24..];
    assert s[..8] == s[0..8] && s[24..] == s[24..36];
    Hex.AllDigitsConcat(a + b + c + d, e);
    Hex.AllDigitsConcat(a + b + c, d);
    Hex.AllDigitsConcat(a + b, c);
    Hex.AllDigitsConcat(a, b);
    Hex.AllDigitsSlice(s, 0, 8);
    Hex.AllDigitsSlice(s, 9, 13);
    Hex.AllDigitsSlice(s, 14, 18);
    Hex.AllDigitsSlice(s, 19, 23);
    Hex.AllDigitsSlice(s, 24, 36);
  }

  /** Parsing the printed form of an identifier gives the identifier back. */
  lemma ParseToString(u: Uuid)
    ensures Parse(ToString(u)) == Some(u)
  {
    var e1, e2, e3, e4, e5 := Hex.Encode(u[..4]), Hex.Encode(u[4..6]), Hex.Encode(u[6..8]), Hex.Encode(u[8..10]), Hex.Encode(u[10..]);
    Groups(ToString(u), e1, e2, e3, e4, e5);
    EncodeGroups(u);
    Hex.DecodeEncode(u);
  }

  /** The five groups of a dashed text, read back without the dashes. */
  lemma Groups(s: string, e1: string, e2: string, e3: string, e4: string, e5: string)
    requires |e1| == 8 && |e2| == |e3| == |e4| == 4 && |e5| == 12
    requires s == e1 + "-" + e2 + "-" + e3 + "-" + e4 + "-" + e5
    ensures |s| == 36 && s[8] == s[13] == s[18] == s[23] == '-'
    ensures s[..8] + s[9..13] + s[14..18] + s[19..23] + s[24..] == e1 + e2 + e3 + e4 + e5
  {
    var r4 := e4 + "-" + e5;
    var r3 := e3 + "-" + r4;
    var r2 := e2 + "-" + r3;
    assert s == e1 + "-" + r2;
    DashSplit(e1, r2);
    DashSplit(e2, r3);
    DashSplit(e3, r4);
    DashSplit(e4, e5);
    assert s[9..13] == r2[..4] && s[14..18] == r3[..4] && s[19..23] == r4[..4] && s[24..] == e5;
    assert s[8] == '-' && s[13] == r2[4] && s[18] == r3[4] && s[23] == r4[4];
  }

  /** Encoding the groups one by one is encoding the identifier. */
  lemma EncodeGroups(u: Uuid)
    ensures Hex.Encode(u[..4]) + Hex.Encode(u[4..6]) + Hex.Encode(u[6..8]) + Hex.Encode(u[8..10]) + Hex.Encode(u[10..])
            == Hex.Encode(u)
  {
    Hex.EncodeAppend(u[..4], u[4..6]);
    Hex.EncodeAppend(u[..6], u[6..8]);
    Hex.EncodeAppend(u[..8], u[8..10]);
    Hex.EncodeAppend(u[..10], u[10..]);
    assert u[..4] + u[4..6] == u[..6] && u[..6] + u[6..8] == u[..8];
    assert u[..8] + u[8..10] == u[..10] && u[..10] + u[10..] == u;
  }

  lemma DashSplit(a: string, rest: string)
    ensures (a + "-" + rest)[..|a|] == a && (a + "-" + rest)[|a|] == '-'
    ensures (a + "-" + rest)[|a| + 1..] == rest
  {
  }
}

=== FILE: webhook_handlers.dfy ===
/**
 * The billing provider's webhook. Only the "user.upgraded" event changes
 * anything: it sets the user's Chirpy Red flag.
 */
module WebhookHandlers {
  import opened Common
  import opened Http
  import Database
  import Config
  import Uuid

  const UserUpgraded := "user.upgraded"
  const InvalidApiKey := "invalid api key"

  /** The decoded request body: the event name and the user id as text. */
  datatype WebhookParams = WebhookParams(event: string, userId: string)

  /**
   * The user table after a successful upgrade of `id`: the same users, the
   * flag of `id` set if it exists, and nothing else changed.
   */
  function Upgraded(users: map<Uuid.Uuid, Database.User>, id: Uuid.Uuid): (r: map<Uuid.Uuid, Database.User>)
    ensures r.Keys == users.Keys
    ensures id in users ==> r[id].isChirpyRed
    ensures id in users ==> r[id].(isChirpyRed := users[id].isChirpyRed) == users[id]
    ensures forall other :: other in users && other != id ==> r[other] == users[other]
  {
    if id in users then users[id := users[id].(isChirpyRed := true)] else users
  }

  /**
   * POST /api/polka/webhooks as written. `apiKey` is what the key extractor
   * returns for the request. A key that cannot be extracted ends the request
   * with 401; a key that differs from the configured one also writes 401,
   * but the handler carries on and may still upgrade the user.
   */
  method HandlerPostPolkaWebhooks(cfg: Config.ApiConfig, apiKey: Result<string>, params: Result<WebhookParams>,
                                  fault: Option<string>)
    returns (resp: Response)
    requires cfg.db.Valid()
    modifies cfg.db`users
    ensures cfg.db.Valid()
    ensures apiKey.Err? ==> resp == ErrorResponse(apiKey.error, 401) && cfg.db.users == old(cfg.db.users)
    ensures apiKey.Ok? ==>
              var first := if apiKey.value != cfg.polkaKey then ErrorResponse(InvalidApiKey, 401) else Fresh;
              && (params.Err? ==> resp == ReturnError(first, params.error, 500) && cfg.db.users == old(cfg.db.users))
              && (params.Ok? && Uuid.Parse(params.value.userId).None? ==>
                    resp == ReturnError(first, Uuid.FormatError, 500) && cfg.db.users == old(cfg.db.users))
              && (params.Ok? && Uuid.Parse(params.value.userId).Some? ==>
                    var id := Uuid.Parse(params.value.userId).value;
                    && (params.value.event != UserUpgraded ==>
                          resp == first.WriteHeader(204) && cfg.db.users == old(cfg.db.users))
                    && (params.value.event == UserUpgraded && fault.Some? ==>
                          resp == ReturnError(first, fault.value, 404) && cfg.db.users == old(cfg.db.users))
                    && (params.value.event == UserUpgraded && fault.None? ==>
                          resp == first.WriteHeader(204) && cfg.db.users == Upgraded(old(cfg.db.users), id)))
  {
    if apiKey.Err? {
      return ErrorResponse(apiKey.error, 401);
    }
    resp := Fresh;
    if apiKey.value != cfg.polkaKey {
      resp := ReturnError(resp, InvalidApiKey, 401);
    }

    if params.Err? {
      return ReturnError(resp, params.error, 500);
    }
    var userID := Uuid.Parse(params.value.userId);
    if userID.None? {
      return ReturnError(resp, Uuid.FormatError, 500);
    }

    if params.value.event == UserUpgraded {
      var err := cfg.db.SetUserIsChirpyRed(userID.value, true, fault);
      if err.Some? {
        return ReturnError(resp, err.value, 404);
      }
    }
    resp := resp.WriteHeader(204);
  }

  /**
   * The webhook as evidently intended: a wrong key ends the request with
   * 401 and changes nothing, so only the configured key can upgrade a user.
   */
  method HandlerPostPolkaWebhooksCorrected(cfg: Config.ApiConfig, apiKey: Result<string>,
                                           params: Result<WebhookParams>, fault: Option<string>)
    returns (resp: Response)
    requires cfg.db.Valid()
    modifies cfg.db`users
    ensures cfg.db.Valid()
    ensures apiKey.Err? ==> resp == ErrorResponse(apiKey.error, 401) && cfg.db.users == old(cfg.db.users)
    ensures apiKey.Ok? && apiKey.value != cfg.polkaKey ==>
              resp == ErrorResponse(InvalidApiKey, 401) && cfg.db.users == old(cfg.db.users)
    ensures cfg.db.users != old(cfg.db.users) ==>
              && apiKey == Ok(cfg.polkaKey) && params.Ok? && params.value.event == UserUpgraded
              && Uuid.Parse(params.value.userId).Some?
              && cfg.db.users == Upgraded(old(cfg.db.users), Uuid.Parse(params.value.userId).value)
              && resp == Fresh.WriteHeader(204)
    ensures apiKey == Ok(cfg.polkaKey) && params.Ok? && Uuid.Parse(params.value.userId).Some? && fault.None? ==>
              resp == Fresh.WriteHeader(204)
              && cfg.db.users == if params.value.event == UserUpgraded
                                 then Upgraded(old(cfg.db.users), Uuid.Parse(params.value.userId).value)
                                 else old(cfg.db.users)
  {
    if apiKey.Ok? && apiKey.value != cfg.polkaKey {
      return ErrorResponse(InvalidApiKey, 401);
    }
    resp := HandlerPostPolkaWebhooks(cfg, apiKey, params, fault);
  }
}

=== FILE: wire.dfy ===
/**
 * A self-delimiting text encoding of a list of strings: each field is its
 * length in decimal, a colon, then the field itself. The model uses it as an
 * injective stand-in for the compact serialization of signed tokens and of
 * password hashes; what matters is only that it can be read back.
 */
module Wire {
  import opened Common
  import opened Decimal

  function Field(s: string): (t: string)
    ensures |t| > |s|
  {
    NatToString(|s|) + ":" + s
  }

  function Encode(fields: seq<string>): string {
    if fields == [] then "" else Field(fields[0]) + Encode(fields[1..])
  }

  /** The number of decimal digits at the start of `t`. */
  function DigitPrefixLength(t: string): (n: nat)
    ensures n <= |t| && AllDigits(t[..n])
    ensures n < |t| ==> !IsDigit(t[n])
  {
    if t == [] || !IsDigit(t[0]) then 0
    else
      var n := 1 + DigitPrefixLength(t[1..]);
      assert t[..n] == [t[0]] + t[1..][..n - 1];
      n
  }

  /** Reads one field from the front of `t`, giving the field and what follows it. */
  function ReadField(t: string): (r: Option<(string, string)>)
    ensures r.Some? ==> |r.value.1| < |t|
  {
    var n := DigitPrefixLength(t);
    if n == 0 || n >= |t| || t[n] != ':' then None
    else
      var len := DigitsValue(t[..n]);
      if |t| - n - 1 < len then None
      else Some((t[n + 1..n + 1 + len], t[n + 1 + len..]))
  }

  /** Reads exactly `count` fields and requires that nothing follows them. */
  function Decode(t: string, count: nat): (r: Option<seq<string>>)
    ensures r.Some? ==> |r.value| == count
    decreases count
  {
    if count == 0 then (if t == "" then Some([]) else None)
    else
      match ReadField(t)
      case None => None
      case Some((f, rest)) =>
        match Decode(rest, count - 1)
        case None => None
        case Some(fs) => Some([f] + fs)
  }

  lemma {:induction false} DigitPrefixOfDigits(d: string, rest: string)
    requires AllDigits(d)
    requires rest != [] && !IsDigit(rest[0])
    ensures DigitPrefixLength(d + rest) == |d|
  {
    if d != [] {
      assert (d + rest)[1..] == d[1..] + rest;
      DigitPrefixOfDigits(d[1..], rest);
    } else {
      assert d + rest == rest;
    }
  }

  /** A field is read back exactly, leaving what followed it untouched. */
  lemma ReadFieldRoundTrip(s: string, rest: string)
    ensures ReadField(Field(s) + rest) == Some((s, rest))
  {
    var d := NatToString(|s|);
    var t := Field(s) + rest;
    assert t == d + (":" + s + rest);
    DigitPrefixOfDigits(d, ":" + s + rest);
    assert t[..|d|] == d;
    DigitsValueOfNatToString(|s|);
    assert t[|d| + 1..|d| + 1 + |s|] == s;
    assert t[|d| + 1 + |s|..] == rest;
  }

  /** Decoding an encoded list of fields gives the list back. */
  lemma {:induction false} DecodeEncode(fields: seq<string>)
    ensures Decode(Encode(fields), |fields|) == Some(fields)
  {
    if fields != [] {
      ReadFieldRoundTrip(fields[0], Encode(fields[1..]));
      DecodeEncode(fields[1..]);
      assert [fields[0]] + fields[1..] == fields;
    }
  }

  /** Distinct lists of fields are encoded differently. */
  lemma EncodeInjective(a: seq<string>, b: seq<string>)
    requires |a| == |b| && Encode(a) == Encode(b)
    ensures a == b
  {
    DecodeEncode(a);
    DecodeEncode(b);
  }
}
